=== FILE: README.md ===
# SimCache experiment engine, modelled in Dafny

The model covers the experiment automation around the SimCache cache
simulator. An experiment has three inputs:

- a configuration template;
- a list of parameter combinations;
- a list of target metrics.

Each combination is expanded into a command-line configuration with
`str.format`. The simulator runs once per configuration, and each run's
captured output is gated and parsed into a map from statistic name to number.
Finally, the collected statistics are projected onto the target metrics, one
list per metric, and each combination gets a label (its `str`) for the charts.

Modules (one per file):

- `Results` (`results.dfy`): `Option` and `Result`, where `Result` stands for a
  value or a raised exception.
- `PyText` (`pytext.dfy`): the Python `str` operations the engine uses.
  - `isspace`, `strip`, `startswith`/`endswith` and `in`;
  - `find`, `split(sep)` and `sep.join`;
  - `str(int)`.
- `PyFloat` (`pyfloat.dfy`): Python's `float(str)` over exact reals.
  - signs, `inf`/`nan`, decimal literals with exponents, and digit-separating
    underscores.
- `StatParser` (`stat_parser.dfy`): `runner.py`.
  - the sentinel gate of `run_with_config`;
  - `parse_simcache_output`, as a reference fold over the lines and as the
    loop the source writes;
  - `cast_to_float_with_k`.
- `Combinations` (`combinations.dfy`): a parameter combination as an ordered
  list of name/value pairs.
  - Python's `str` and `repr` of its values;
  - `str(dict)`, which is the label;
  - a reader for that text, proving that labels tell combinations apart.
- `ConfigTemplate` (`config_template.dfy`): `base_config.format(**combination)`
  for plain named fields and the `{{`/`}}` escapes.
  - It finds the `}` that closes a field by counting the braces inside it.
    A plain keyword field whose text holds a brace is rejected, as Python
    rejects it.
  - A format spec with nested fields, such as `{a:{b}}`, is reported as
    unsupported. An index holding `{`, such as `{a[{]}`, is malformed here,
    where Python indexes (see "## Left out").
  - It is related to a reference "pieces" reading of a template in both
    directions.
- `Experiments` (`experiments.dfy`): `generate_configs`, `run_simulations`,
  `extract_metrics` and the sequence of steps in `run_experiment`.
  - The runner is a function parameter.
  - The runner `main.py` installs is the simulator's captured output (itself
    a parameter) passed through `StatParser.RunWithConfig`.

Python exceptions become error values:

- `StatParser.RunError`:
  - `SimulationFailed` is the `RuntimeError` of the gate;
  - `MissingStatsBlock` is the `IndexError` of `split(...)[1]`;
  - `InvalidNumber` is the `ValueError` of the cast.
- `ConfigTemplate.TemplateError`:
  - `MissingKey` is `KeyError`;
  - `Malformed` is the `ValueError` of the format-string parser;
  - `Positional` is the `IndexError` of `{}`/`{0}`;
  - `Unsupported` marks fields outside the model.

## Model

| member | source | states |
|---|---|---|
| StatParser.RunWithConfig | simcache_automation/runner.py:24-30 | A run fails with the gate's error exactly when the captured output lacks `sim: ** simulation statistics **`. Otherwise the result is the parse of the output, which then can never be the missing-block error. |
| StatParser.StatsBlock | simcache_automation/runner.py:40 | `split(sentinel)` has a segment `[1]` exactly when the output contains the sentinel. |
| StatParser.ParseOutput | simcache_automation/runner.py:40 | The parser fails with the `IndexError` of `[1]` exactly when the sentinel is absent. |
| StatParser.StatsBlockBetween | simcache_automation/runner.py:40 | The block read is the text after the first sentinel. When a second sentinel follows, the block stops there, and nothing after it is read. |
| StatParser.ParseOutputBetween | simcache_automation/runner.py:40-44 | The statistics of an output are those of the `\n`-lines between the first and second sentinel, whatever text surrounds them. |
| StatParser.ParseSimcacheOutput | simcache_automation/runner.py:32-57 | The source's loop, written out, gives the same result as the reference fold `ParseOutput` on every output. |
| StatParser.ReadStats | simcache_automation/runner.py:41-57 | The loop over the block's lines, which returns as soon as a value fails to cast, gives the same result as the reference fold over all lines. |
| StatParser.Store | simcache_automation/runner.py:55 | The assignment succeeds exactly when the value casts, and then the map gains exactly that key with the cast value. Otherwise the cast's invalid-number error is raised. |
| PyText.SplitJoins | simcache_automation/runner.py:40 | The pieces of `split(sep)` join back, with `sep`, to the original text. No piece contains `sep`. There is more than one piece exactly when the text contains `sep`. |
| StatParser.ReadLine | simcache_automation/runner.py:45-55 | One iteration of the loop body: a line whose comment-free stripped text is empty or starts with `ld` leaves the map unchanged. Otherwise, if its last token casts, the map gains its first token bound to the cast value. If the cast fails, the invalid-number error is raised. |
| StatParser.SplitStat | simcache_automation/runner.py:45-49 | The key is a space-free prefix of the stripped, comment-free line and ends at a space or at the end of the line. The value is a space-free suffix and starts after a space, or at the start of the stripped text. Each token is empty exactly when the line is. |
| StatParser.CommentIgnored | simcache_automation/runner.py:45 | For a line that neither contains `" # "` nor ends with `" #"`, appending `" # "` and any text changes neither its body nor its key and value. |
| StatParser.StatLineTokens | simcache_automation/runner.py:47-49 | In `key<gap>value`, where key and value are non-empty and space-free, the gap starts and ends with a space, and none of the three holds `#`, the tokens are exactly `key` and `value`, and middle tokens are ignored. |
| StatParser.LineEffectMeaning | simcache_automation/runner.py:51-55 | A line sets a value exactly when it is kept and its value casts. It raises exactly when it is kept and the cast fails. It sets its own key to the cast value. |
| StatParser.KeptIff | simcache_automation/runner.py:51-54 | The source's test on the tokens (key not starting with `ld`, key and value non-empty) holds exactly when the line's comment-free stripped text is non-empty and does not start with `ld`. |
| StatParser.IgnoredLine | simcache_automation/runner.py:51-54 | A line that is not kept leaves the parse of the lines before it unchanged. |
| StatParser.WhitespaceLineIgnored | simcache_automation/runner.py:46-54 | A blank or whitespace-only line adds nothing. |
| StatParser.StatsOfKeys | simcache_automation/runner.py:54-55 | The keys of the result are exactly the keys of the kept lines of the block. |
| StatParser.KeptKeyShape | simcache_automation/runner.py:47-52 | The key of a kept line is non-empty, has no space and does not start with `ld`. |
| StatParser.StatsOfKeyShape | simcache_automation/runner.py:47-52 | Every key of the result is non-empty, contains no space and does not start with `ld`. |
| StatParser.StatsOfLastWins | simcache_automation/runner.py:55 | For a key on several kept lines, the map holds the cast value of the last such line. |
| StatParser.StatsOfFailure | simcache_automation/runner.py:44-55 | The whole parse fails exactly when some kept line's value does not cast. One bad value aborts everything. |
| StatParser.CastToFloatWithK | simcache_automation/runner.py:66-74 | The only error is the invalid-number error, and a finite result needs a digit in the token. |
| StatParser.CastPlain | simcache_automation/runner.py:69-70 | A token not ending in `k`, `K` or the Kelvin sign casts exactly when its plain `float` parse succeeds, and then to that value. |
| StatParser.CastScalesK | simcache_automation/runner.py:67-68 | Appending `k`, `K` or the Kelvin sign to a token that does not already end in one keeps castability both ways, and the value becomes 1000 times the token's value. |
| StatParser.CastDoubledK | simcache_automation/runner.py:66-74 | A token that already ends in a `k` letter raises the invalid-number error once another is appended: only the last `k` is stripped, and `float()` rejects the one before it (`"5kk"`). |
| PyFloat.TrailingKRejected | simcache_automation/runner.py:69-70 | `float()` rejects every text that ends in `k`, `K` or the Kelvin sign. |
| StatParser.CastRejectsSeparator | simcache_automation/runner.py:66-74 | A token starting with one of U+001C to U+001F raises the invalid-number error, because `float()` does not strip those characters, even though `str.strip` does. |
| PyFloat.SeparatorRejected | simcache_automation/runner.py:69-70 | `float()` rejects a text that starts with one of U+001C to U+001F. |
| StatParser.CastBareK | simcache_automation/runner.py:66-74 | An empty token and a bare `k`/`K` raise the invalid-number error. |
| StatParser.CastFiniteK | simcache_automation/runner.py:67-68 | If a token that does not already end in `k`, `K` or the Kelvin sign casts to the finite v, then the token followed by any of them casts to v × 1000. |
| StatParser.CastInteger | simcache_automation/runner.py:69-70 | The decimal text of any integer casts to that integer. |
| StatParser.CastIntegerK | simcache_automation/runner.py:67-68 | The decimal text of an integer followed by `k` casts to 1000 times the integer. |
| StatParser.CastPoint | simcache_automation/runner.py:69-70 | `"<a>.<f>"` casts to a + f / 10^len(f). |
| StatParser.CastPointK | simcache_automation/runner.py:67-68 | `"<a>.<f>k"`, such as `1.5k`, casts to 1000 × (a + f / 10^len(f)). |
| Combinations.Lookup | simcache_automation/experiments.py:26 | A keyword is found exactly when some pair of the combination has that name, and its value is the value of such a pair. |
| Combinations.LookupDistinct | simcache_automation/experiments.py:26 | When the names of a combination are distinct, as in a dictionary, each name finds its own value. |
| Combinations.LookupExtended | simcache_automation/experiments.py:26 | Pairs added after a found name never change what the name finds. |
| Combinations.ScalarStr | simcache_automation/experiments.py:26 | `str` of a parameter value, as a field is filled in, with no contract of its own: a string is itself, an integer its decimal text, a float its `repr` text, and `True`, `False` and `None` as Python prints them. `FormatIsSubstitution` places it in the expansion. |
| Combinations.DictRepr | simcache_automation/experiments.py:96 | `str(combination)` is enclosed in braces. `ParseDictRepr` reads it back as the combination, and `DictReprInjective` says no two combinations share it. |
| Combinations.ReadStrRepr | simcache_automation/experiments.py:96 | The `repr` of a string (quote choice and escapes) reads back as the string, whatever text follows it. |
| Combinations.StrReprInjective | simcache_automation/experiments.py:96 | Distinct strings have distinct `repr`s. |
| Combinations.ReadScalarRepr | simcache_automation/experiments.py:96 | A parameter value's `repr`, followed by `,` or `}`, reads back as the value. |
| Combinations.ParseDictRepr | simcache_automation/experiments.py:96 | The label `str(combination)` reads back as the combination. |
| Combinations.DictReprInjective | simcache_automation/experiments.py:96 | Two combinations with the same label are the same combination. |
| ConfigTemplate.Format | simcache_automation/experiments.py:26 | `base_config.format(**combination)`, with no contract of its own. `FormatIsSubstitution` and `FormatTemplate` give its meaning as substitution into the parsed pieces. `FormatNeedsParse` says it succeeds only on well-formed text, and `MissingPlaceholderFails` gives its `KeyError`. |
| ConfigTemplate.FieldName | simcache_automation/experiments.py:26 | A field is looked up exactly when its text is a plain keyword: non-empty, not all digits, and free of `[`, braces, `:`, `!` and `.`. Any other field fails before any lookup. |
| ConfigTemplate.NestedSpecUnsupported | simcache_automation/experiments.py:26 | A format spec with a nested field, `{a:{b}}`, is reported as unsupported, naming the whole field text. |
| ConfigTemplate.IndexBraceMalformed | simcache_automation/experiments.py:26 | The index field `{a[{]}` is reported as malformed, which is where the model departs from Python. |
| ConfigTemplate.Substitute | simcache_automation/experiments.py:26 | Reference meaning of a template: it succeeds exactly when every field's name is in the combination, and otherwise the error names a missing field. |
| ConfigTemplate.FormatTemplate | simcache_automation/experiments.py:26 | Formatting the text of valid pieces, with braces doubled and fields braced, gives exactly their reference meaning. |
| ConfigTemplate.ParseTemplate | simcache_automation/experiments.py:26 | The text of valid pieces parses back to the pieces. |
| ConfigTemplate.TemplateOfParse | simcache_automation/experiments.py:26 | Whatever parses consists of valid pieces and is their text. |
| ConfigTemplate.FormatNeedsParse | simcache_automation/experiments.py:26 | A template that formats with any combination is well formed. |
| ConfigTemplate.FormatIsSubstitution | simcache_automation/experiments.py:26 | For a well-formed template, formatting is substituting the combination into its pieces. |
| ConfigTemplate.MissingPlaceholderFails | simcache_automation/experiments.py:26 | A well-formed template naming a parameter the combination lacks raises a `KeyError` for a missing name. |
| ConfigTemplate.BraceFreeVerbatim | simcache_automation/experiments.py:26 | A template without braces expands to itself for every combination. |
| ConfigTemplate.FormatIgnoresExtraKeys | simcache_automation/experiments.py:26 | Appending pairs to a combination leaves every successful expansion unchanged, because the names the template uses are found in the combination first. When all names are distinct, as in a merged dictionary, the appended pairs are keys the template does not use. |
| ConfigTemplate.GenerateConfigs | simcache_automation/experiments.py:25-27 | On success there is one configuration per combination, in the same order, each the expansion of its combination. Otherwise the error is that of the first combination that fails, and all earlier ones expanded. |
| Experiments.RunSimulations | simcache_automation/experiments.py:32-35 | Earlier results are kept as a prefix. Result k comes from the runner on configuration k. The run completes exactly when all configurations ran. An exception is the next configuration's error, and the results appended before it remain. |
| Experiments.Get | simcache_automation/experiments.py:43 | `result.get(metric, None)` is present exactly when the metric is a key, and then it is the key's value. |
| Experiments.ColumnLength | simcache_automation/experiments.py:41-43 | A metric listed n times among the targets gets n entries per result. |
| Experiments.ColumnAt | simcache_automation/experiments.py:41-43 | Entry i·n + k of such a list is result i's value for the metric, so the projection is positional. |
| Experiments.ColumnOnce | simcache_automation/experiments.py:41-43 | A metric listed once gets one entry per result: result i's value, or `None`. |
| Experiments.AppendResult | simcache_automation/experiments.py:42-43 | One pass of the inner loop appends, to every target's list, one copy of the result's value per occurrence of that target, and adds no key. |
| Experiments.ExtractMetrics | simcache_automation/experiments.py:40-44 | The keys are exactly the target metrics, and each list is the positional column described above. For distinct targets, each list has `len(results)` entries and entry i is `results[i].get(m)`. |
| Experiments.Labels | simcache_automation/experiments.py:96 | There is one label per combination, in order, and label i is `str` of combination i. `LabelsDistinct` says the labels tell the combinations apart. |
| Experiments.LabelsDistinct | simcache_automation/experiments.py:96 | Two labels are equal exactly when their combinations are equal. |
| Experiments.SimcacheRunner | simcache_automation/runner.py:10-30 | The runner object: the gate and parser applied to the simulator's captured output, which is a parameter. `SimcacheRunnerErrors` states its errors. |
| Experiments.SimcacheRunnerErrors | simcache_automation/runner.py:20-30 | The runner raises the simulator's failure exactly when the output lacks the sentinel. Its only other error is a value that does not cast: the parser's missing-block error never escapes the gate. |
| Experiments.NewExperiment | simcache_automation/experiments.py:13-21 | `SimcacheExperiment(...)` keeps its arguments and starts with no results, with no contract of its own. `RunFreshExperiment` states what running such an experiment gives. |
| Experiments.RunFreshExperiment | simcache_automation/experiments.py:13-21 | A new experiment run on the combinations keeps its arguments. A template error leaves it without results. On completion it holds one result per combination: the runner's result for that combination's configuration, in order. With distinct target metrics, entry i of every metric list is combination i's statistic, or `None`. |
| Experiments.RunExperiment | simcache_automation/experiments.py:88-96 | A template error leaves the experiment unchanged. A simulation error keeps the results appended before it. On completion, one result is appended per combination, the metrics are the projection of all results, and there is one label per combination in order. On a fresh experiment with distinct targets, every metric list has one entry per combination. |

## Left out

- Launching the simulator is I/O and is not modelled (`runner.py:17-23`: the
  shell command built from `PATHS_SIMCACHE`, `os.popen`, `load_dotenv`).
  `StatParser.RunWithConfig` takes the captured output as a parameter, and the
  experiment takes the runner as a function parameter.
- Logging is not modelled: every `logger` call, and `simcache_automation/logger.py`.
- `save_metrics_to_json`, `plot_lines` and `plot_bar_chart` are not modelled
  (`experiments.py:46-86`, `94`, `98-101`). They are file output and
  rendering. `RunExperiment` returns the data they would receive.
- `main.py` is not modelled: the thread pool that runs experiments
  concurrently, directory creation and JSON loading.
- StatParser.CastToFloatWithK: values are exact reals, not doubles.
  - There is no rounding to the nearest double.
  - There is no overflow to infinity: `float("1e400")` and a large value
    times 1000 stay finite here.
  - Python's non-ASCII decimal digits in `float()` are not accepted.
- StatParser.RunWithConfig: the exception messages and the re-raise after
  logging are reduced to the `RunError` kinds.
- ConfigTemplate.FieldName: every field with a format spec, a conversion, an
  attribute or an index is reported as `Unsupported`.
  - This includes `{a:}`, which Python expands like `{a}`.
  - Python's own error for such fields, or its result, is not modelled.
  - Field names are checked for ASCII digits only.
  - An index holding `{` is not reported as `Unsupported`: `{a[{]}` is `Malformed` here
    (`ConfigTemplate.IndexBraceMalformed`). Python reads the index up to its
    `]` and looks up the key `"{"`, because it counts braces only inside a
    format spec.
- Combinations.Scalar: only JSON scalars are modelled as parameter values;
  lists and objects are not.
  - A float is carried as the text Python's `repr` prints for it, since
    shortest-repr printing of doubles is not modelled.
  - `Combinations.ParseDictRepr` assumes that text looks like a float
    (`FloatText`).
- Combinations.EscapeChar: non-ASCII characters are copied into a `repr`
  unchanged. Python escapes the non-printable ones (such as U+00A0) with
  `\x`, `\u` or `\U`.
- Combinations.Combination: a combination is a list of pairs in insertion
  order. The duplicate-key handling of `json.load` is not modelled.
  - `Lookup` returns the first pair with a name. `LookupDistinct` states that
    this is the dictionary's value when names are distinct, as they are in a
    dictionary.
- Experiments.ExtractMetrics: the one-entry-per-result length holds only for
  distinct target metrics.
  - With a repeated metric the source appends one entry per occurrence to the
    same list, and the contract states that general form (`Column` with
    `Count`).
- Experiments.RunExperiment: the experiment object is a value passed in and
  returned rather than mutated in place. `experiment_name` is kept but used
  only by the left-out file output.

=== FILE: combinations.dfy ===
/** Parameter combinations, as loaded from an experiment's JSON
    description: an ordered mapping from parameter name to a JSON scalar.
    The module gives Python's `str()` of a value (what `str.format` inserts
    into a configuration) and `repr()` (what `str(dict)` shows in a label). */
module Combinations {
  import opened Results
  import opened PyText

  /** A JSON scalar as Python holds it after `json.load`. A float is kept
      as the text Python's `repr` prints for it. */
  datatype Scalar =
    | Str(s: string)
    | Int(i: int)
    | Real(text: string)
    | Bool(b: bool)
    | Null

  /** A parameter combination: name/value pairs in insertion order. */
  type Combination = seq<(string, Scalar)>

  /** Python's `d.get(name)` on the dict of a combination. */
  function Lookup(c: Combination, name: string): (r: Option<Scalar>)
    ensures r.Some? <==> exists i :: 0 <= i < |c| && c[i].0 == name
    ensures r.Some? ==> exists i :: 0 <= i < |c| && c[i] == (name, r.value)
  {
    if |c| == 0 then None
    else if c[0].0 == name then Some(c[0].1)
    else
      var r := Lookup(c[1..], name);
      assert forall i :: 0 <= i < |c[1..]| ==> c[1..][i] == c[i + 1];
      r
  }

  /** No name occurs twice, as in every dict `json.load` returns. */
  predicate DistinctNames(c: Combination) {
    forall i, j :: 0 <= i < j < |c| ==> c[i].0 != c[j].0
  }

  /** With distinct names, every pair's name finds that pair's value, so it
      does not matter whether the first or the last pair of a name wins. */
  lemma {:induction false} LookupDistinct(c: Combination, i: nat)
    requires DistinctNames(c) && i < |c|
    ensures Lookup(c, c[i].0) == Some(c[i].1)
  {
    if i > 0 {
      assert c[0].0 != c[i].0;
      assert c[1..][i - 1] == c[i];
      assert DistinctNames(c[1..]) by {
        forall a, b | 0 <= a < b < |c[1..]|
          ensures c[1..][a].0 != c[1..][b].0
        {
          assert c[1..][a] == c[a + 1] && c[1..][b] == c[b + 1];
        }
      }
      LookupDistinct(c[1..], i - 1);
    }
  }

  /** Pairs added after the existing ones never hide them. */
  lemma LookupExtended(c: Combination, extra: Combination, name: string)
    requires Lookup(c, name).Some?
    ensures Lookup(c + extra, name) == Lookup(c, name)
  {
    if c[0].0 != name {
      assert (c + extra)[1..] == c[1..] + extra;
      LookupExtended(c[1..], extra, name);
    }
  }

  /** Python's `str(v)`. */
  function ScalarStr(v: Scalar): string
  {
    match v
    case Str(s) => s
    case Int(i) => IntToString(i)
    case Real(text) => text
    case Bool(b) => if b then "True" else "False"
    case Null => "None"
  }

  /** Python's `repr(v)`: strings are quoted and escaped, the rest print
      as `str` does. */
  function ScalarRepr(v: Scalar): string
  {
    match v
    case Str(s) => StrRepr(s)
    case _ => ScalarStr(v)
  }

  const HexDigits: string := "0123456789abcdef"

  /** The quote `repr` chooses: `"` when the text holds a `'` and no `"`,
      otherwise `'`. */
  function QuoteFor(s: string): (q: char)
    ensures q == '\'' || q == '"'
    ensures q == '"' <==> '\'' in s && '"' !in s
  {
    if '\'' in s && '"' !in s then '"' else '\''
  }

  /** How `repr` writes one character inside quotes `q`. */
  function EscapeChar(c: char, q: char): (e: string)
    ensures 1 <= |e| <= 4
    ensures e[0] == '\\' <==> |e| > 1
  {
    if c == q || c == '\\' then ['\\', c]
    else if c == '\t' then "\\t"
    else if c == '\n' then "\\n"
    else if c == '\r' then "\\r"
    else if c < ' ' || c == '\U{7F}' then
      ['\\', 'x', HexDigits[c as int / 16], HexDigits[c as int % 16]]
    else [c]
  }

  /** The characters of a string written between quotes `q`. */
  function Escape(s: string, q: char): string
  {
    if |s| == 0 then "" else EscapeChar(s[0], q) + Escape(s[1..], q)
  }

  /** Python's `repr(s)` for a string. */
  function StrRepr(s: string): (r: string)
    ensures |r| >= 2 && r[0] == r[|r| - 1] == QuoteFor(s)
  {
    var q := QuoteFor(s);
    [q] + Escape(s, q) + [q]
  }

  function HexValue(c: char): (r: Option<nat>)
    ensures r.Some? ==> r.value < 16 && HexDigits[r.value] == c
  {
    if '0' <= c <= '9' then Some(c as int - '0' as int)
    else if 'a' <= c <= 'f' then Some(c as int - 'a' as int + 10)
    else None
  }

  /** A character in front of what was read after it. */
  function Prepend(c: char, r: Option<(string, string)>): (r': Option<(string, string)>)
    ensures r'.Some? <==> r.Some?
    ensures r'.Some? ==> r'.value == ([c] + r.value.0, r.value.1)
  {
    match r
    case None => None
    case Some((t, rest)) => Some(([c] + t, rest))
  }

  /** Reads the escaped characters of a quoted string up to its closing
      quote `q`: the text they stand for and what follows the quote, or
      `None` when no quote closes it or an escape is not one `repr` writes. */
  function ReadBody(e: string, q: char): (r: Option<(string, string)>)
    ensures r.Some? ==> |r.value.1| < |e|
    decreases |e|
  {
    if |e| == 0 then None
    else if e[0] == q then Some(("", e[1..]))
    else if e[0] != '\\' then Prepend(e[0], ReadBody(e[1..], q))
    else if |e| < 2 then None
    else if e[1] == q || e[1] == '\\' then Prepend(e[1], ReadBody(e[2..], q))
    else if e[1] == 't' then Prepend('\t', ReadBody(e[2..], q))
    else if e[1] == 'n' then Prepend('\n', ReadBody(e[2..], q))
    else if e[1] == 'r' then Prepend('\r', ReadBody(e[2..], q))
    else if e[1] == 'x' && |e| >= 4 then
      match (HexValue(e[2]), HexValue(e[3]))
      case (Some(hi), Some(lo)) => Prepend((hi * 16 + lo) as char, ReadBody(e[4..], q))
      case _ => None
    else None
  }

  /** Reads a quoted string at the start of `r`: its text and what follows. */
  function ReadStr(r: string): (p: Option<(string, string)>)
    ensures p.Some? ==> |p.value.1| < |r|
  {
    if |r| > 0 && (r[0] == '\'' || r[0] == '"') then ReadBody(r[1..], r[0]) else None
  }

  /** One escaped character, then more text: the character comes back. */
  lemma ReadEscapedChar(c: char, q: char, more: string)
    requires q == '\'' || q == '"'
    ensures ReadBody(EscapeChar(c, q) + more, q) == Prepend(c, ReadBody(more, q))
  {
    if c == q || c == '\\' {
      ReadTwoCharEscape(c, c, q, more);
    } else if c == '\t' {
      ReadTwoCharEscape('t', c, q, more);
    } else if c == '\n' {
      ReadTwoCharEscape('n', c, q, more);
    } else if c == '\r' {
      ReadTwoCharEscape('r', c, q, more);
    } else if c < ' ' || c == '\U{7F}' {
      ReadHexEscape(c, q, more);
    } else {
      ReadPlainChar(c, q, more);
    }
  }

  /** A character that needs no escape reads as itself. */
  lemma ReadPlainChar(c: char, q: char, more: string)
    requires c != q && c != '\\'
    ensures ReadBody([c] + more, q) == Prepend(c, ReadBody(more, q))
  {
    assert ([c] + more)[1..] == more;
  }

  /** A backslash and the letter `d` read as the character `c` it stands for. */
  lemma ReadTwoCharEscape(d: char, c: char, q: char, more: string)
    requires q == '\'' || q == '"'
    requires (d == c && (c == q || c == '\\')) || (d == 't' && c == '\t')
      || (d == 'n' && c == '\n') || (d == 'r' && c == '\r')
    ensures ReadBody(['\\', d] + more, q) == Prepend(c, ReadBody(more, q))
  {
    assert (['\\', d] + more)[2..] == more;
  }

  /** A control character written as `\xhh` reads back as itself. */
  lemma ReadHexEscape(c: char, q: char, more: string)
    requires q == '\'' || q == '"'
    requires c < ' ' || c == '\U{7F}'
    ensures ReadBody(['\\', 'x', HexDigits[c as int / 16], HexDigits[c as int % 16]] + more, q)
      == Prepend(c, ReadBody(more, q))
  {
    HexDigitsOf(c);
    ReadHexText(HexDigits[c as int / 16], HexDigits[c as int % 16], c, q, more);
  }

  /** The two hex digits of a code point below 0x80 read back as it. */
  lemma HexDigitsOf(c: char)
    requires c as int < 0x80
    ensures HexValue(HexDigits[c as int / 16]).Some? && HexValue(HexDigits[c as int % 16]).Some?
    ensures (HexValue(HexDigits[c as int / 16]).value * 16 + HexValue(HexDigits[c as int % 16]).value) as char == c
  {
    var hi := c as int / 16;
    var lo := c as int % 16;
    assert HexValue(HexDigits[hi]) == Some(hi);
    assert HexValue(HexDigits[lo]) == Some(lo);
  }

  lemma ReadHexText(h: char, l: char, c: char, q: char, more: string)
    requires q == '\'' || q == '"'
    requires HexValue(h).Some? && HexValue(l).Some?
    requires (HexValue(h).value * 16 + HexValue(l).value) as char == c
    ensures ReadBody(['\\', 'x', h, l] + more, q) == Prepend(c, ReadBody(more, q))
  {
    assert (['\\', 'x', h, l] + more)[4..] == more;
  }

  /** The escaped text, its closing quote and anything after: reading
      gives the text back and stops at the quote. */
  lemma {:induction false} ReadBodyEscape(s: string, q: char, rest: string)
    requires q == '\'' || q == '"'
    ensures ReadBody(Escape(s, q) + [q] + rest, q) == Some((s, rest))
    decreases |s|
  {
    if |s| == 0 {
      assert Escape(s, q) + [q] + rest == [q] + rest;
    } else {
      ReadBodyEscape(s[1..], q, rest);
      ReadEscapedChar(s[0], q, Escape(s[1..], q) + [q] + rest);
      EscapeCons(s, q, rest);
    }
  }

  lemma EscapeCons(s: string, q: char, rest: string)
    requires |s| > 0
    ensures Escape(s, q) + [q] + rest == EscapeChar(s[0], q) + (Escape(s[1..], q) + [q] + rest)
    ensures [s[0]] + s[1..] == s
  {
  }

  /** A string's `repr` reads back as the string, whatever follows it. */
  lemma ReadStrRepr(s: string, rest: string)
    ensures ReadStr(StrRepr(s) + rest) == Some((s, rest))
  {
    var q := QuoteFor(s);
    var r := StrRepr(s) + rest;
    assert r[1..] == Escape(s, q) + [q] + rest;
    ReadBodyEscape(s, q, rest);
  }

  /** Distinct strings have distinct `repr`s. */
  lemma StrReprInjective(s: string, t: string)
    requires StrRepr(s) == StrRepr(t)
    ensures s == t
  {
    ReadStrRepr(s, "");
    ReadStrRepr(t, "");
  }

  /** The integer a decimal text denotes, with an optional minus sign. */
  function IntOfText(t: string): (r: Option<int>)
    ensures r.Some? ==> forall k :: 0 <= k < |t| ==> IsDigit(t[k]) || (k == 0 && t[k] == '-')
  {
    if |t| > 0 && AllDigits(t) then Some(DigitsValue(t))
    else if |t| > 1 && t[0] == '-' && AllDigits(t[1..]) then
      assert forall k :: 1 <= k < |t| ==> t[k] == t[1..][k - 1];
      var n: int := DigitsValue(t[1..]);
      Some(-n)
    else None
  }

  lemma IntOfTextString(i: int)
    ensures IntOfText(IntToString(i)) == Some(i)
  {
    if i < 0 {
      var t := IntToString(i);
      assert t[1..] == NatToString(-i);
      assert !AllDigits(t) by { assert !IsDigit(t[0]); }
    }
  }

  predicate IsFloatChar(c: char) {
    IsDigit(c) || c == '.' || c == 'e' || c == '+' || c == '-' || c == 'i' || c == 'n' || c == 'f' || c == 'a'
  }

  /** Text Python's `repr` can print for a float: digits, signs, a point,
      an exponent, `inf` or `nan`, and always something an integer lacks. */
  predicate FloatText(t: string) {
    && |t| > 0
    && (forall k :: 0 <= k < |t| ==> IsFloatChar(t[k]))
    && (exists k :: 0 <= k < |t| && !IsDigit(t[k]) && t[k] != '-')
  }

  predicate ValidScalar(v: Scalar) {
    v.Real? ==> FloatText(v.text)
  }

  predicate ValidCombination(c: Combination) {
    forall i :: 0 <= i < |c| ==> ValidScalar(c[i].1)
  }

  /** The scalar an unquoted `repr` token stands for. */
  function ScalarOfToken(t: string): Option<Scalar>
  {
    if t == "True" then Some(Bool(true))
    else if t == "False" then Some(Bool(false))
    else if t == "None" then Some(Null)
    else match IntOfText(t)
      case Some(i) => Some(Int(i))
      case None => if FloatText(t) then Some(Real(t)) else None
  }

  /** Where an unquoted token ends: at the next ',' or '}'. */
  function TokenEnd(r: string, i: nat): (k: Option<nat>)
    ensures k.Some? ==> i <= k.value < |r|
    decreases |r| - i
  {
    if i >= |r| then None
    else if r[i] == ',' || r[i] == '}' then Some(i)
    else TokenEnd(r, i + 1)
  }

  lemma {:induction false} TokenEndAt(r: string, i: nat, k: nat)
    requires i <= k < |r| && (r[k] == ',' || r[k] == '}')
    requires forall j :: i <= j < k ==> r[j] != ',' && r[j] != '}'
    ensures TokenEnd(r, i) == Some(k)
    decreases k - i
  {
    if i < k {
      TokenEndAt(r, i + 1, k);
    }
  }

  /** Reads the `repr` of a scalar at the start of `r`: the scalar and
      what follows it. */
  function ReadScalar(r: string): (p: Option<(Scalar, string)>)
    ensures p.Some? ==> |p.value.1| <= |r|
  {
    if |r| > 0 && (r[0] == '\'' || r[0] == '"') then
      var s :- ReadStr(r);
      Some((Str(s.0), s.1))
    else
      var k :- TokenEnd(r, 0);
      var v :- ScalarOfToken(r[..k]);
      Some((v, r[k..]))
  }

  /** The token of a non-string scalar: no quote in front, no ',' or '}'. */
  lemma TokenShape(v: Scalar)
    requires ValidScalar(v) && !v.Str?
    ensures |ScalarRepr(v)| > 0
    ensures ScalarRepr(v)[0] != '\'' && ScalarRepr(v)[0] != '"'
    ensures forall j :: 0 <= j < |ScalarRepr(v)| ==> ScalarRepr(v)[j] != ',' && ScalarRepr(v)[j] != '}'
    ensures ScalarOfToken(ScalarRepr(v)) == Some(v)
  {
    match v
    case Int(i) => IntToken(i);
    case Real(t) => RealToken(t);
    case _ =>
  }

  lemma IntToken(i: int)
    ensures |IntToString(i)| > 0
    ensures IntToString(i)[0] != '\'' && IntToString(i)[0] != '"'
    ensures forall j :: 0 <= j < |IntToString(i)| ==> IntToString(i)[j] != ',' && IntToString(i)[j] != '}'
    ensures ScalarOfToken(IntToString(i)) == Some(Int(i))
  {
    IntOfTextString(i);
    var t := IntToString(i);
    assert |t| > 0 && (IsDigit(t[0]) || t[0] == '-');
  }

  lemma RealToken(t: string)
    requires FloatText(t)
    ensures t[0] != '\'' && t[0] != '"'
    ensures forall j :: 0 <= j < |t| ==> t[j] != ',' && t[j] != '}'
    ensures ScalarOfToken(t) == Some(Real(t))
  {
    var k :| 0 <= k < |t| && !IsDigit(t[k]) && t[k] != '-';
    assert IntOfText(t) == None;
    assert IsFloatChar(t[0]);
  }

  /** A scalar's `repr` reads back as the scalar when a ',' or '}' follows. */
  lemma ReadScalarRepr(v: Scalar, tail: string)
    requires ValidScalar(v)
    requires |tail| > 0 && (tail[0] == ',' || tail[0] == '}')
    ensures ReadScalar(ScalarRepr(v) + tail) == Some((v, tail))
  {
    if v.Str? {
      ReadStrRepr(v.s, tail);
    } else {
      var t := ScalarRepr(v);
      var r := t + tail;
      TokenShape(v);
      TokenEndAt(r, 0, |t|);
      assert r[..|t|] == t && r[|t|..] == tail;
    }
  }

  /** Python's `str(d)` for the dict of a combination. */
  function DictRepr(c: Combination): (r: string)
    ensures |r| >= 2 && r[0] == '{' && r[|r| - 1] == '}'
  {
    if |c| == 0 then "{}" else "{" + EntriesText(c)
  }

  /** The `key: value` entries of a non-empty dict's `repr`, separated by
      `, `, and the closing brace. */
  function EntriesText(c: Combination): (r: string)
    requires |c| > 0
    ensures |r| > 0 && r[|r| - 1] == '}'
    decreases |c|
  {
    StrRepr(c[0].0) + ": " + ScalarRepr(c[0].1)
      + (if |c| == 1 then "}" else ", " + EntriesText(c[1..]))
  }

  /** Reads a dict's `repr` back into its pairs. */
  function ParseDict(r: string): Option<Combination>
  {
    if r == "{}" then Some([])
    else if |r| > 0 && r[0] == '{' then ParseEntries(r[1..])
    else None
  }

  function ParseEntries(r: string): Option<Combination>
    decreases |r|
  {
    var key :- ReadStr(r);
    var rest := key.1;
    if |rest| < 2 || rest[..2] != ": " then None
    else
      var value :- ReadScalar(rest[2..]);
      EntryThen(key.0, value.0, value.1)
  }

  /** Reading one `key: value` entry and the text after it, for any key
      and value texts that read back. */
  lemma ReadEntryText(sk: string, rest: string, sv: string, k: string, v: Scalar, tail: string)
    requires rest == ": " + (sv + tail)
    requires ReadStr(sk + rest) == Some((k, rest))
    requires ReadScalar(sv + tail) == Some((v, tail))
    ensures ParseEntries(sk + rest) == EntryThen(k, v, tail)
  {
    assert rest[..2] == ": " && rest[2..] == sv + tail;
  }

  /** What the rest of a dict's `repr` reads as after the entry `k: v`. */
  function EntryThen(k: string, v: Scalar, tail: string): Option<Combination>
    decreases |tail|
  {
    if tail == "}" then Some([(k, v)])
    else if |tail| >= 2 && tail[..2] == ", " then
      var more :- ParseEntries(tail[2..]);
      Some([(k, v)] + more)
    else None
  }

  lemma ReadEntry(k: string, v: Scalar, tail: string)
    requires ValidScalar(v)
    requires |tail| > 0 && (tail[0] == ',' || tail[0] == '}')
    ensures ParseEntries(StrRepr(k) + ": " + ScalarRepr(v) + tail) == EntryThen(k, v, tail)
  {
    var rest := ": " + (ScalarRepr(v) + tail);
    ReadStrRepr(k, rest);
    ReadScalarRepr(v, tail);
    ReadEntryText(StrRepr(k), rest, ScalarRepr(v), k, v, tail);
    Reassociate(StrRepr(k), ": ", ScalarRepr(v), tail);
  }

  lemma Reassociate(a: string, b: string, c: string, d: string)
    ensures a + b + c + d == a + (b + (c + d))
  {
  }

  /** The last entry: the closing brace follows it. */
  lemma LastEntry(k: string, v: Scalar)
    ensures EntryThen(k, v, "}") == Some([(k, v)])
  {
  }

  /** An entry followed by `, ` and more entries that read back. */
  lemma MoreEntries(k: string, v: Scalar, rest: string, more: Combination)
    requires ParseEntries(rest) == Some(more)
    ensures EntryThen(k, v, ", " + rest) == Some([(k, v)] + more)
  {
    var tail := ", " + rest;
    assert tail[..2] == ", " && tail[2..] == rest;
  }

  lemma ValidTailCombination(c: Combination)
    requires |c| > 0 && ValidCombination(c)
    ensures ValidScalar(c[0].1) && ValidCombination(c[1..])
  {
    forall i | 0 <= i < |c[1..]| ensures ValidScalar(c[1..][i].1) {
      assert c[1..][i] == c[i + 1];
    }
  }

  lemma {:induction false} ParseEntriesText(c: Combination)
    requires |c| > 0 && ValidCombination(c)
    ensures ParseEntries(EntriesText(c)) == Some(c)
    decreases |c|
  {
    ValidTailCombination(c);
    if |c| > 1 {
      ParseEntriesText(c[1..]);
      EntriesStep(c);
    } else {
      ReadEntry(c[0].0, c[0].1, "}");
      LastEntry(c[0].0, c[0].1);
      assert [c[0]] == c;
    }
  }

  /** The first entry of several, in front of entries that read back. */
  lemma EntriesStep(c: Combination)
    requires |c| > 1 && ValidScalar(c[0].1)
    requires ParseEntries(EntriesText(c[1..])) == Some(c[1..])
    ensures ParseEntries(EntriesText(c)) == Some(c)
  {
    ReadEntry(c[0].0, c[0].1, ", " + EntriesText(c[1..]));
    MoreEntries(c[0].0, c[0].1, EntriesText(c[1..]), c[1..]);
    assert [c[0]] + c[1..] == c;
  }

  /** A combination's `repr` reads back as the combination. */
  lemma ParseDictRepr(c: Combination)
    requires ValidCombination(c)
    ensures ParseDict(DictRepr(c)) == Some(c)
  {
    if |c| > 0 {
      var r := DictRepr(c);
      var q := StrRepr(c[0].0)[0];
      assert r[1] == q;
      assert r != "{}";
      assert r[1..] == EntriesText(c);
      ParseEntriesText(c);
    }
  }

  /** Distinct combinations print as distinct dicts. */
  lemma DictReprInjective(c: Combination, d: Combination)
    requires ValidCombination(c) && ValidCombination(d)
    requires DictRepr(c) == DictRepr(d)
    ensures c == d
  {
    ParseDictRepr(c);
    ParseDictRepr(d);
  }
}

=== FILE: config_template.dfy ===
/** Expansion of the base configuration template with one parameter
    combination: Python's `base_config.format(**combination)`, restricted to
    plain named fields `{name}` and the brace escapes `{{` and `}}`. */
module ConfigTemplate {
  import opened Results
  import opened PyText
  import opened Combinations

  /** Why `str.format` raises. */
  datatype TemplateError =
    | MissingKey(name: string)    // KeyError: a named field the combination lacks
    | Malformed                   // ValueError: an unmatched brace or a '{' in a field name
    | Positional                  // IndexError: `{}` or `{0}` with no positional arguments
    | Unsupported(field: string)  // a conversion, format spec, attribute or index field

  /** Index of the '}' that closes a field, scanning from `i` with `depth`
      braces open; a '{' inside the field opens another level. A plain
      keyword field whose text then holds a brace is rejected by
      `FieldName` as `Malformed`, as Python rejects it. Python counts braces
      only inside a format spec: a spec with nested fields is `Unsupported`
      here (`NestedSpecUnsupported`), and an index holding `{` is
      `Malformed` here where Python indexes (`IndexBraceMalformed`). */
  function FieldEnd(t: string, i: nat, depth: nat): (r: Option<nat>)
    requires depth >= 1
    ensures r.Some? ==> i <= r.value < |t| && t[r.value] == '}'
    decreases |t| - i
  {
    if i >= |t| then None
    else if t[i] == '}' then
      if depth == 1 then Some(i) else FieldEnd(t, i + 1, depth - 1)
    else if t[i] == '{' then FieldEnd(t, i + 1, depth + 1)
    else FieldEnd(t, i + 1, depth)
  }

  /** A character that ends a field name: what follows it is an index,
      a conversion, a format spec or a nested brace. */
  predicate IsNameStop(c: char) {
    c == '[' || c == '{' || c == '}' || c == ':' || c == '!'
  }

  /** A character allowed in a plain keyword field name. */
  predicate IsNameChar(c: char) {
    !IsNameStop(c) && c != '.'
  }

  /** The field names this model expands: a keyword looked up in the
      combination, with no attribute, index, conversion or format spec. */
  predicate ValidName(n: string) {
    |n| > 0 && !AllDigits(n) && forall k :: 0 <= k < |n| ==> IsNameChar(n[k])
  }

  function FirstStop(f: string, i: nat): (r: Option<nat>)
    ensures r.None? ==> forall k :: i <= k < |f| ==> !IsNameStop(f[k])
    ensures r.Some? ==> i <= r.value < |f| && IsNameStop(f[r.value])
    decreases |f| - i
  {
    if i >= |f| then None
    else if IsNameStop(f[i]) then Some(i)
    else FirstStop(f, i + 1)
  }

  /** Checks the text between a field's braces and returns the keyword to
      look up; every other form of field is an error. */
  function FieldName(f: string): (r: Result<string, TemplateError>)
    ensures r.Ok? <==> ValidName(f)
    ensures r.Ok? ==> r.value == f
    ensures r.Err? ==> !r.error.MissingKey?
  {
    match FirstStop(f, 0)
    case Some(j) =>
      if f[j] == '{' || f[j] == '}' then Err(Malformed) else Err(Unsupported(f))
    case None =>
      if '.' in f then Err(Unsupported(f))
      else if AllDigits(f) then Err(Positional)
      else Ok(f)
  }

  /** `t.format(**c)`: the text with every field replaced by `str` of its
      value, or the first error met scanning left to right. */
  function Format(t: string, c: Combination): Result<string, TemplateError>
    decreases |t|
  {
    if |t| == 0 then Ok("")
    else if t[0] == '{' && |t| >= 2 && t[1] == '{' then
      var rest :- Format(t[2..], c);
      Ok("{" + rest)
    else if t[0] == '{' then
      match FieldEnd(t, 1, 1)
      case None => Err(Malformed)
      case Some(e) =>
        var name :- FieldName(t[1..e]);
        match Lookup(c, name)
        case None => Err(MissingKey(name))
        case Some(v) =>
          var rest :- Format(t[e + 1..], c);
          Ok(ScalarStr(v) + rest)
    else if t[0] == '}' && |t| >= 2 && t[1] == '}' then
      var rest :- Format(t[2..], c);
      Ok("}" + rest)
    else if t[0] == '}' then Err(Malformed)
    else
      var rest :- Format(t[1..], c);
      Ok([t[0]] + rest)
  }

  /** A format spec may hold nested fields, as in `{a:{b}}`: the braces
      inside are counted, and the field is reported as unsupported. */
  lemma NestedSpecUnsupported(c: Combination)
    ensures Format("{a:{b}}", c) == Err(Unsupported("a:{b}"))
  {
    assert FieldEnd("{a:{b}}", 1, 1) == Some(6);
    assert "{a:{b}}"[1..6] == "a:{b}";
    assert FirstStop("a:{b}", 0) == Some(1);
  }

  /** An index holding `{`, as in `{a[{]}`: the braces counted in the field
      never close, so the template is malformed here, where Python reads
      the index up to its `]` and looks `a` up with the key `"{"`. */
  lemma IndexBraceMalformed(c: Combination)
    ensures Format("{a[{]}", c) == Err(Malformed)
  {
    assert FieldEnd("{a[{]}", 1, 1) == None;
  }

  /** A template read as a sequence of literal characters and fields. */
  datatype Piece = Char(ch: char) | Field(name: string)

  predicate ValidPieces(ps: seq<Piece>) {
    forall k :: 0 <= k < |ps| ==> ps[k].Field? ==> ValidName(ps[k].name)
  }

  /** How a piece is written in a template: braces doubled, fields braced. */
  function PieceText(p: Piece): string
  {
    match p
    case Char(ch) => if ch == '{' || ch == '}' then [ch, ch] else [ch]
    case Field(n) => "{" + n + "}"
  }

  /** The template text of a sequence of pieces. */
  function Template(ps: seq<Piece>): string
  {
    if |ps| == 0 then "" else PieceText(ps[0]) + Template(ps[1..])
  }

  /** The reference meaning of a template: each character stands for
      itself and each field for `str` of its value; the first field the
      combination lacks is the error. */
  function Substitute(ps: seq<Piece>, c: Combination): (r: Result<string, TemplateError>)
    ensures r.Ok? <==> forall k :: 0 <= k < |ps| && ps[k].Field? ==> Lookup(c, ps[k].name).Some?
    ensures r.Err? ==> exists k :: 0 <= k < |ps| && ps[k].Field? && r.error == MissingKey(ps[k].name)
                          && Lookup(c, ps[k].name).None?
  {
    if |ps| == 0 then Ok("")
    else
      var rest := Substitute(ps[1..], c);
      assert forall k :: 1 <= k < |ps| ==> ps[k] == ps[1..][k - 1];
      match ps[0]
      case Char(ch) =>
        (match rest case Ok(s) => Ok([ch] + s) case Err(e) => Err(e))
      case Field(n) =>
        match Lookup(c, n)
        case None => Err(MissingKey(n))
        case Some(v) =>
          (match rest case Ok(s) => Ok(ScalarStr(v) + s) case Err(e) => Err(e))
  }

  /** The syntax of a template alone: its pieces, or the first error that
      does not depend on the combination. */
  function Parse(t: string): Result<seq<Piece>, TemplateError>
    decreases |t|
  {
    if |t| == 0 then Ok([])
    else if t[0] == '{' && |t| >= 2 && t[1] == '{' then
      var rest :- Parse(t[2..]);
      Ok([Char('{')] + rest)
    else if t[0] == '{' then
      match FieldEnd(t, 1, 1)
      case None => Err(Malformed)
      case Some(e) =>
        var name :- FieldName(t[1..e]);
        var rest :- Parse(t[e + 1..]);
        Ok([Field(name)] + rest)
    else if t[0] == '}' && |t| >= 2 && t[1] == '}' then
      var rest :- Parse(t[2..]);
      Ok([Char('}')] + rest)
    else if t[0] == '}' then Err(Malformed)
    else
      var rest :- Parse(t[1..]);
      Ok([Char(t[0])] + rest)
  }

  /** A field whose name holds no brace closes at the first '}'. */
  lemma {:induction false} FieldEndPlain(t: string, i: nat, k: nat)
    requires i <= k < |t| && t[k] == '}'
    requires forall j :: i <= j < k ==> t[j] != '{' && t[j] != '}'
    ensures FieldEnd(t, i, 1) == Some(k)
    decreases k - i
  {
    if i < k {
      FieldEndPlain(t, i + 1, k);
    }
  }

  lemma TemplateCons(p: Piece, ps: seq<Piece>)
    ensures Template([p] + ps) == PieceText(p) + Template(ps)
  {
    assert ([p] + ps)[1..] == ps;
  }

  /** One more valid piece in front of valid pieces: still valid, and its
      text comes first. */
  lemma ConsPiece(p: Piece, ps: seq<Piece>)
    requires p.Field? ==> ValidName(p.name)
    requires ValidPieces(ps)
    ensures ValidPieces([p] + ps)
    ensures Template([p] + ps) == PieceText(p) + Template(ps)
  {
    TemplateCons(p, ps);
    forall k | 1 <= k < |[p] + ps| ensures ([p] + ps)[k] == ps[k - 1] {
    }
  }

  /** Formatting the text of valid pieces gives their reference meaning. */
  lemma {:induction false} FormatTemplate(ps: seq<Piece>, c: Combination)
    requires ValidPieces(ps)
    ensures Format(Template(ps), c) == Substitute(ps, c)
    decreases |ps|
  {
    if |ps| > 0 {
      ValidTail(ps);
      FormatTemplate(ps[1..], c);
      FormatPiece(ps[0], Template(ps[1..]), c);
    }
  }

  /** Parsing the text of valid pieces gives the pieces back. */
  lemma {:induction false} ParseTemplate(ps: seq<Piece>)
    requires ValidPieces(ps)
    ensures Parse(Template(ps)) == Ok(ps)
    decreases |ps|
  {
    if |ps| > 0 {
      ValidTail(ps);
      ParseTemplate(ps[1..]);
      ParsePiece(ps, Template(ps[1..]));
    }
  }

  lemma ValidTail(ps: seq<Piece>)
    requires |ps| > 0 && ValidPieces(ps)
    ensures ps[0].Field? ==> ValidName(ps[0].name)
    ensures ValidPieces(ps[1..])
  {
    forall k | 0 <= k < |ps[1..]| ensures ps[1..][k].Field? ==> ValidName(ps[1..][k].name) {
      assert ps[1..][k] == ps[k + 1];
    }
  }

  /** Where a field's text ends: the name, then the closing brace. */
  lemma FieldText(n: string, r: string)
    requires ValidName(n)
    ensures var t := PieceText(Field(n)) + r;
      t[0] == '{' && |t| >= 2 && t[1] != '{'
      && FieldEnd(t, 1, 1) == Some(|n| + 1) && t[1..|n| + 1] == n && t[|n| + 2..] == r
  {
    var t := PieceText(Field(n)) + r;
    var e := |n| + 1;
    assert t == "{" + n + "}" + r;
    assert t[1] == n[0] && IsNameChar(n[0]);
    forall j | 1 <= j < e
      ensures t[j] != '{' && t[j] != '}'
    {
      assert t[j] == n[j - 1] && IsNameChar(n[j - 1]);
    }
    FieldEndPlain(t, 1, e);
    assert t[1..e] == n;
    assert t[e + 1..] == r;
  }

  /** One piece's contribution in front of the result for what follows it. */
  function PieceThen(p: Piece, c: Combination, rest: Result<string, TemplateError>): Result<string, TemplateError>
  {
    match p
    case Char(ch) => (match rest case Ok(s) => Ok([ch] + s) case Err(e) => Err(e))
    case Field(n) =>
      match Lookup(c, n)
      case None => Err(MissingKey(n))
      case Some(v) => (match rest case Ok(s) => Ok(ScalarStr(v) + s) case Err(e) => Err(e))
  }

  /** One piece in front of more text: formatting handles the piece, then
      goes on with the text. */
  lemma FormatPiece(p: Piece, r: string, c: Combination)
    requires p.Field? ==> ValidName(p.name)
    ensures Format(PieceText(p) + r, c) == PieceThen(p, c, Format(r, c))
  {
    var t := PieceText(p) + r;
    match p
    case Char(ch) =>
      if ch == '{' || ch == '}' {
        assert t[2..] == r;
      } else {
        assert t[1..] == r;
      }
    case Field(n) =>
      FieldText(n, r);
  }

  /** One piece in front of more text: parsing reads the piece, then goes
      on with the text. */
  lemma ParsePiece(ps: seq<Piece>, r: string)
    requires |ps| > 0 && (ps[0].Field? ==> ValidName(ps[0].name))
    requires Parse(r) == Ok(ps[1..])
    ensures Parse(PieceText(ps[0]) + r) == Ok(ps)
  {
    var t := PieceText(ps[0]) + r;
    assert [ps[0]] + ps[1..] == ps;
    match ps[0]
    case Char(ch) =>
      if ch == '{' || ch == '}' {
        assert t[2..] == r;
      } else {
        assert t[1..] == r;
      }
    case Field(n) =>
      FieldText(n, r);
  }

  /** Whatever parses consists of valid pieces. */
  lemma {:induction false} ParseValid(t: string)
    requires Parse(t).Ok?
    ensures ValidPieces(Parse(t).value)
    decreases |t|
  {
    if |t| > 0 {
      if t[0] == '{' && |t| >= 2 && t[1] == '{' {
        ParseValid(t[2..]);
        ConsPiece(Char('{'), Parse(t[2..]).value);
      } else if t[0] == '{' {
        var e := FieldEnd(t, 1, 1).value;
        ParseValid(t[e + 1..]);
        ConsPiece(Field(t[1..e]), Parse(t[e + 1..]).value);
      } else if t[0] == '}' {
        ParseValid(t[2..]);
        ConsPiece(Char('}'), Parse(t[2..]).value);
      } else {
        ParseValid(t[1..]);
        ConsPiece(Char(t[0]), Parse(t[1..]).value);
      }
    }
  }

  /** When `t` starts with the text of `p` and parses to `p` followed by
      what the rest parses to, the rest's text extends to the whole. */
  lemma TemplateStep(t: string, p: Piece, k: nat)
    requires k <= |t| && Parse(t).Ok? && Parse(t[k..]).Ok?
    requires Parse(t).value == [p] + Parse(t[k..]).value
    requires PieceText(p) == t[..k]
    requires Template(Parse(t[k..]).value) == t[k..]
    ensures Template(Parse(t).value) == t
  {
    TemplateCons(p, Parse(t[k..]).value);
    assert t == t[..k] + t[k..];
  }

  /** Whatever parses is the text of the pieces it parses to. */
  lemma {:induction false} TemplateOfParse(t: string)
    requires Parse(t).Ok?
    ensures ValidPieces(Parse(t).value)
    ensures Template(Parse(t).value) == t
    decreases |t|
  {
    ParseValid(t);
    if |t| > 0 {
      if t[0] == '{' && |t| >= 2 && t[1] == '{' {
        TemplateOfParse(t[2..]);
        TemplateStep(t, Char('{'), 2);
      } else if t[0] == '{' {
        var e := FieldEnd(t, 1, 1).value;
        TemplateOfParse(t[e + 1..]);
        TemplateStep(t, Field(t[1..e]), e + 1);
      } else if t[0] == '}' {
        TemplateOfParse(t[2..]);
        TemplateStep(t, Char('}'), 2);
      } else {
        TemplateOfParse(t[1..]);
        TemplateStep(t, Char(t[0]), 1);
      }
    }
  }

  /** A template that formats with some combination is well formed. */
  lemma {:induction false} FormatNeedsParse(t: string, c: Combination)
    requires Format(t, c).Ok?
    ensures Parse(t).Ok?
    decreases |t|
  {
    if |t| > 0 {
      if t[0] == '{' && |t| >= 2 && t[1] == '{' {
        FormatNeedsParse(t[2..], c);
      } else if t[0] == '{' {
        var e := FieldEnd(t, 1, 1).value;
        FormatNeedsParse(t[e + 1..], c);
      } else if t[0] == '}' {
        FormatNeedsParse(t[2..], c);
      } else {
        FormatNeedsParse(t[1..], c);
      }
    }
  }

  /** Formatting a well-formed template is substituting into its pieces:
      it succeeds exactly when every field names a key of the combination,
      and otherwise reports the first missing one. */
  lemma FormatIsSubstitution(t: string, c: Combination)
    requires Parse(t).Ok?
    ensures Format(t, c) == Substitute(Parse(t).value, c)
  {
    TemplateOfParse(t);
    FormatTemplate(Parse(t).value, c);
  }

  /** A well-formed template naming a parameter the combination lacks
      fails with a missing key, never with a value. */
  lemma MissingPlaceholderFails(t: string, c: Combination, k: nat)
    requires Parse(t).Ok? && k < |Parse(t).value|
    requires Parse(t).value[k].Field? && Lookup(c, Parse(t).value[k].name).None?
    ensures Format(t, c).Err? && Format(t, c).error.MissingKey?
    ensures Lookup(c, Format(t, c).error.name).None?
  {
    FormatIsSubstitution(t, c);
  }

  /** A template without braces is copied unchanged. */
  lemma {:induction false} BraceFreeVerbatim(t: string, c: Combination)
    requires '{' !in t && '}' !in t
    ensures Format(t, c) == Ok(t)
    decreases |t|
  {
    if |t| > 0 {
      assert t[0] in t;
      assert forall ch :: ch in t[1..] ==> ch in t;
      BraceFreeVerbatim(t[1..], c);
      assert t == [t[0]] + t[1..];
    }
  }

  /** Pairs appended after a combination change no successful expansion:
      every name the template uses is found in the combination itself, and
      `Lookup` returns the first pair with a name. When the names of
      `c + extra` are distinct, as in a merged dictionary, the appended
      pairs are keys the template does not use. */
  lemma {:induction false} FormatIgnoresExtraKeys(t: string, c: Combination, extra: Combination)
    requires Format(t, c).Ok?
    ensures Format(t, c + extra) == Format(t, c)
    decreases |t|
  {
    if |t| > 0 {
      if t[0] == '{' && |t| >= 2 && t[1] == '{' {
        FormatIgnoresExtraKeys(t[2..], c, extra);
      } else if t[0] == '{' {
        var e := FieldEnd(t, 1, 1).value;
        LookupExtended(c, extra, t[1..e]);
        FormatIgnoresExtraKeys(t[e + 1..], c, extra);
      } else if t[0] == '}' {
        FormatIgnoresExtraKeys(t[2..], c, extra);
      } else {
        FormatIgnoresExtraKeys(t[1..], c, extra);
      }
    }
  }

  /** `[base_config.format(**c) for c in combinations]`: every
      configuration, in order, or the error of the first combination that
      cannot be expanded. */
  function GenerateConfigs(base: string, combos: seq<Combination>): (r: Result<seq<string>, TemplateError>)
    ensures r.Ok? <==> forall i :: 0 <= i < |combos| ==> Format(base, combos[i]).Ok?
    ensures r.Ok? ==> |r.value| == |combos|
                      && forall i :: 0 <= i < |combos| ==> Format(base, combos[i]) == Ok(r.value[i])
    ensures r.Err? ==> exists i :: 0 <= i < |combos| && Format(base, combos[i]) == Err(r.error)
                          && forall j :: 0 <= j < i ==> Format(base, combos[j]).Ok?
  {
    if |combos| == 0 then Ok([])
    else
      var first := Format(base, combos[0]);
      var rest := GenerateConfigs(base, combos[1..]);
      assert forall i :: 1 <= i < |combos| ==> combos[i] == combos[1..][i - 1];
      if first.Err? then Err(first.error)
      else if rest.Err? then
        assert exists i :: 0 <= i < |combos[1..]| && Format(base, combos[1..][i]) == Err(rest.error)
                  && forall j :: 0 <= j < i ==> Format(base, combos[1..][j]).Ok?;
        var i :| 0 <= i < |combos[1..]| && Format(base, combos[1..][i]) == Err(rest.error)
                  && forall j :: 0 <= j < i ==> Format(base, combos[1..][j]).Ok?;
        assert forall j :: 0 <= j < i + 1 ==> Format(base, combos[j]).Ok?;
        Err(rest.error)
      else Ok([first.value] + rest.value)
  }
}

=== FILE: experiments.dfy ===
/** The experiment engine of `experiments.py`: configurations from a
    template, one simulation per configuration in order, the projection of
    the collected statistics onto the target metrics, and the labels of the
    combinations. */
module Experiments {
  import opened Results
  import opened PyText
  import opened PyFloat
  import opened StatParser
  import opened Combinations
  import opened ConfigTemplate

  /** What `runner.run_with_config` does with one configuration: its
      statistics, or the exception it raises. */
  type Runner = string -> Result<StatMap, RunError>

  /** The runner `main.py` installs: the simulator's captured output for a
      configuration (a parameter: launching it is I/O), gated and parsed. */
  function SimcacheRunner(simulate: string -> string): Runner
  {
    config => RunWithConfig(simulate(config))
  }

  /** The Simcache runner fails only as `run_with_config` raises: with the
      simulator's failure exactly when the output lacks the sentinel, and
      otherwise only with a value that does not cast. The parser's own
      missing-block error never escapes the gate. */
  lemma SimcacheRunnerErrors(simulate: string -> string, config: string)
    ensures SimcacheRunner(simulate)(config) == Err(SimulationFailed) <==> !Contains(simulate(config), Sentinel)
    ensures SimcacheRunner(simulate)(config).Err? ==>
              SimcacheRunner(simulate)(config).error in {SimulationFailed, InvalidNumber}
  {
    var output := simulate(config);
    if Contains(output, Sentinel) {
      assert StatsBlock(output).Some?;
    }
  }

  /** The state a `SimcacheExperiment` keeps. */
  datatype Experiment = Experiment(
    baseConfig: string,
    targetMetrics: seq<string>,
    name: string,
    results: seq<StatMap>)

  /** `SimcacheExperiment(...)`: no results yet. */
  function NewExperiment(baseConfig: string, targetMetrics: seq<string>, name: string): Experiment
  {
    Experiment(baseConfig, targetMetrics, name, [])
  }

  /** `run_simulations`: runs the configurations in order and appends each
      run's statistics. An exception stops the loop and propagates, and the
      results appended before it stay. */
  method RunSimulations(results: seq<StatMap>, configs: seq<string>, run: Runner)
    returns (results': seq<StatMap>, failure: Option<RunError>)
    ensures |results| <= |results'| <= |results| + |configs|
    ensures results'[..|results|] == results
    ensures forall i :: 0 <= i < |results'| - |results| ==> run(configs[i]) == Ok(results'[|results| + i])
    ensures failure.None? <==> |results'| == |results| + |configs|
    ensures failure.Some? ==> run(configs[|results'| - |results|]) == Err(failure.value)
  {
    results' := results;
    failure := None;
    var i := 0;
    while i < |configs|
      invariant 0 <= i <= |configs|
      invariant |results'| == |results| + i
      invariant results'[..|results|] == results
      invariant forall k :: 0 <= k < i ==> run(configs[k]) == Ok(results'[|results| + k])
    {
      var stats := run(configs[i]);
      if stats.Err? {
        failure := Some(stats.error);
        return;
      }
      results' := results' + [stats.value];
      i := i + 1;
    }
  }

  /** `result.get(metric, None)`. */
  function Get(stats: StatMap, metric: string): (r: Option<Float>)
    ensures r.Some? <==> metric in stats
    ensures r.Some? ==> r.value == stats[metric]
  {
    if metric in stats then Some(stats[metric]) else None
  }

  /** How often `m` occurs in `s`. */
  function Count(s: seq<string>, m: string): (n: nat)
    ensures n <= |s|
    ensures n == 0 <==> m !in s
  {
    if |s| == 0 then 0
    else
      var init := s[..|s| - 1];
      assert forall x :: x in s <==> x in init || x == s[|s| - 1];
      Count(init, m) + (if s[|s| - 1] == m then 1 else 0)
  }

  predicate NoDuplicates(s: seq<string>) {
    forall i, j :: 0 <= i < j < |s| ==> s[i] != s[j]
  }

  function Repeat<T>(x: T, n: nat): (r: seq<T>)
    ensures |r| == n
    ensures forall k :: 0 <= k < n ==> r[k] == x
  {
    if n == 0 then [] else Repeat(x, n - 1) + [x]
  }

  /** The list `extract_metrics` builds for `m` when `m` is listed `n`
      times among the targets: per result, in order, `n` copies of the
      result's value for `m`. */
  function Column(results: seq<StatMap>, m: string, n: nat): seq<Option<Float>>
  {
    if |results| == 0 then []
    else Column(results[..|results| - 1], m, n) + Repeat(Get(results[|results| - 1], m), n)
  }

  lemma {:induction false} ColumnLength(results: seq<StatMap>, m: string, n: nat)
    ensures |Column(results, m, n)| == |results| * n
    decreases |results|
  {
    if |results| > 0 {
      ColumnLength(results[..|results| - 1], m, n);
    }
  }

  lemma MulMonotone(a: nat, b: nat, n: nat)
    requires a <= b
    ensures a * n <= b * n
  { }

  /** Entry `i * n + k` of a column holds result `i`'s value: the
      projection is positional. */
  lemma {:induction false} ColumnAt(results: seq<StatMap>, m: string, n: nat, i: nat, k: nat)
    requires i < |results| && k < n
    ensures i * n + k < |Column(results, m, n)|
    ensures Column(results, m, n)[i * n + k] == Get(results[i], m)
    decreases |results|
  {
    var last := |results| - 1;
    var init := results[..last];
    ColumnLength(init, m, n);
    ColumnLength(results, m, n);
    if i < last {
      MulMonotone(i + 1, last, n);
      ColumnAt(init, m, n, i, k);
    } else {
      assert i * n + k - |Column(init, m, n)| == k;
    }
  }

  /** With the target listed once, the column has one entry per result,
      the result's value or `None`. */
  lemma ColumnOnce(results: seq<StatMap>, m: string)
    ensures |Column(results, m, 1)| == |results|
    ensures forall i :: 0 <= i < |results| ==> Column(results, m, 1)[i] == Get(results[i], m)
  {
    ColumnLength(results, m, 1);
    forall i | 0 <= i < |results|
      ensures Column(results, m, 1)[i] == Get(results[i], m)
    {
      ColumnAt(results, m, 1, i, 0);
    }
  }

  /** A metric listed once among distinct targets is counted once. */
  lemma {:induction false} CountDistinct(s: seq<string>, m: string)
    requires NoDuplicates(s) && m in s
    ensures Count(s, m) == 1
    decreases |s|
  {
    var init := s[..|s| - 1];
    if s[|s| - 1] == m {
      assert m !in init by {
        forall j | 0 <= j < |init| ensures init[j] != m {
          assert init[j] == s[j];
        }
      }
    } else {
      assert m in init;
      CountDistinct(init, m);
    }
  }

  /** One more target counted. */
  lemma CountStep(s: seq<string>, j: nat, m: string)
    requires j < |s|
    ensures Count(s[..j + 1], m) == Count(s[..j], m) + (if s[j] == m then 1 else 0)
  {
    assert s[..j + 1][..j] == s[..j];
  }

  /** `x` is `extracted` with, for every metric, one copy of the result's
      value per occurrence of the metric in `ts` appended. */
  predicate Appended(x: map<string, seq<Option<Float>>>, extracted: map<string, seq<Option<Float>>>,
                     result: StatMap, ts: seq<string>)
  {
    && x.Keys == extracted.Keys
    && forall m :: m in x ==> x[m] == extracted[m] + Repeat(Get(result, m), Count(ts, m))
  }

  lemma AppendStep(x: map<string, seq<Option<Float>>>, extracted: map<string, seq<Option<Float>>>,
                   result: StatMap, targets: seq<string>, j: nat)
    requires j < |targets| && targets[j] in x
    requires Appended(x, extracted, result, targets[..j])
    ensures Appended(x[targets[j] := x[targets[j]] + [Get(result, targets[j])]], extracted, result, targets[..j + 1])
  {
    var m := targets[j];
    var x' := x[m := x[m] + [Get(result, m)]];
    forall n | n in x'
      ensures x'[n] == extracted[n] + Repeat(Get(result, n), Count(targets[..j + 1], n))
    {
      CountStep(targets, j, n);
    }
  }

  /** One pass of the inner loop of `extract_metrics`: every target
      appends the result's value for it to its own list. */
  method AppendResult(extracted: map<string, seq<Option<Float>>>, targets: seq<string>, result: StatMap)
    returns (x: map<string, seq<Option<Float>>>)
    requires extracted.Keys == set m | m in targets
    ensures x.Keys == extracted.Keys
    ensures forall m :: m in x ==> x[m] == extracted[m] + Repeat(Get(result, m), Count(targets, m))
  {
    x := extracted;
    var j := 0;
    assert Appended(x, extracted, result, targets[..0]);
    while j < |targets|
      invariant 0 <= j <= |targets|
      invariant Appended(x, extracted, result, targets[..j])
    {
      assert targets[j] in x;
      AppendStep(x, extracted, result, targets, j);
      x := x[targets[j] := x[targets[j]] + [Get(result, targets[j])]];
      j := j + 1;
    }
    assert targets[..j] == targets;
  }

  /** `extract_metrics`: for every target metric, the values of that metric
      across the results, in order; a metric listed twice gets two entries
      per result, since both passes append to the same list. */
  method ExtractMetrics(results: seq<StatMap>, targets: seq<string>)
    returns (extracted: map<string, seq<Option<Float>>>)
    ensures extracted.Keys == set m | m in targets
    ensures forall m :: m in extracted ==> extracted[m] == Column(results, m, Count(targets, m))
    ensures NoDuplicates(targets) ==>
              forall m :: m in extracted ==>
                |extracted[m]| == |results|
                && forall i :: 0 <= i < |results| ==> extracted[m][i] == Get(results[i], m)
  {
    extracted := map m | m in targets :: [];
    var i := 0;
    while i < |results|
      invariant 0 <= i <= |results|
      invariant extracted.Keys == set m | m in targets
      invariant forall m :: m in extracted ==> extracted[m] == Column(results[..i], m, Count(targets, m))
    {
      extracted := AppendResult(extracted, targets, results[i]);
      assert results[..i + 1][..i] == results[..i];
      i := i + 1;
    }
    assert results[..i] == results;
    if NoDuplicates(targets) {
      forall m | m in extracted
        ensures |extracted[m]| == |results|
        ensures forall i :: 0 <= i < |results| ==> extracted[m][i] == Get(results[i], m)
      {
        CountDistinct(targets, m);
        ColumnOnce(results, m);
      }
    }
  }

  /** A new experiment run on the combinations. On completion it holds one
      result per combination, the runner's result for that combination's
      configuration, in order. With distinct target metrics, every metric
      lists one value per combination: that combination's statistic, or
      `None`. A template error leaves it without results. */
  method RunFreshExperiment(baseConfig: string, targets: seq<string>, name: string,
                            combos: seq<Combination>, run: Runner)
    returns (e: Experiment, outcome: Outcome)
    ensures e.baseConfig == baseConfig && e.targetMetrics == targets && e.name == name
    ensures outcome.Failed? && outcome.error.ConfigError? ==> e.results == []
    ensures outcome.Completed? ==>
              && GenerateConfigs(baseConfig, combos).Ok?
              && |e.results| == |combos|
              && (forall i :: 0 <= i < |combos| ==>
                    run(GenerateConfigs(baseConfig, combos).value[i]) == Ok(e.results[i]))
              && outcome.labels == Labels(combos)
    ensures outcome.Completed? && NoDuplicates(targets) ==>
              forall m :: m in outcome.metrics ==>
                |outcome.metrics[m]| == |combos|
                && forall i :: 0 <= i < |combos| ==> outcome.metrics[m][i] == Get(e.results[i], m)
  {
    e, outcome := RunExperiment(NewExperiment(baseConfig, targets, name), combos, run);
    if outcome.Completed? && NoDuplicates(targets) {
      forall m | m in outcome.metrics
        ensures forall i :: 0 <= i < |combos| ==> outcome.metrics[m][i] == Get(e.results[i], m)
      {
        CountDistinct(targets, m);
        ColumnOnce(e.results, m);
      }
    }
  }

  /** `[str(combination) for combination in param_combinations]`. */
  function Labels(combos: seq<Combination>): (r: seq<string>)
    ensures |r| == |combos|
    ensures forall i :: 0 <= i < |combos| ==> r[i] == DictRepr(combos[i])
  {
    seq(|combos|, i requires 0 <= i < |combos| => DictRepr(combos[i]))
  }

  /** Labels tell combinations apart: two combinations share a label only
      when they are the same combination, so no two bars of a chart merge. */
  lemma LabelsDistinct(combos: seq<Combination>, i: nat, j: nat)
    requires forall k :: 0 <= k < |combos| ==> ValidCombination(combos[k])
    requires i < |combos| && j < |combos|
    ensures Labels(combos)[i] == Labels(combos)[j] <==> combos[i] == combos[j]
  {
    if Labels(combos)[i] == Labels(combos)[j] {
      DictReprInjective(combos[i], combos[j]);
    }
  }

  datatype ExperimentError =
    | ConfigError(template: TemplateError)
    | SimulationError(run: RunError)

  /** What `run_experiment` hands to the JSON dump and the plots. */
  datatype Outcome =
    | Completed(metrics: map<string, seq<Option<Float>>>, labels: seq<string>)
    | Failed(error: ExperimentError)

  /** What a run of the simulations leaves behind: the results from before
      as a prefix, then, for each configuration in order up to the first
      that failed, the result the runner gave for it. */
  predicate Recorded(before: seq<StatMap>, after: seq<StatMap>, configs: seq<string>, run: Runner) {
    && |before| <= |after| <= |before| + |configs|
    && after[..|before|] == before
    && forall i :: 0 <= i < |after| - |before| ==> run(configs[i]) == Ok(after[|before| + i])
  }

  /** `run_experiment`: configurations, simulations, metrics, labels. An
      exception from expanding the template leaves the experiment as it
      was; one from a simulation keeps the results appended before it. */
  method RunExperiment(e: Experiment, combos: seq<Combination>, run: Runner)
    returns (e': Experiment, outcome: Outcome)
    ensures e'.baseConfig == e.baseConfig && e'.targetMetrics == e.targetMetrics && e'.name == e.name
    ensures GenerateConfigs(e.baseConfig, combos).Err? ==>
              e' == e && outcome == Failed(ConfigError(GenerateConfigs(e.baseConfig, combos).error))
    ensures GenerateConfigs(e.baseConfig, combos).Ok? ==>
              var configs := GenerateConfigs(e.baseConfig, combos).value;
              Recorded(e.results, e'.results, configs, run)
              && (outcome.Failed? ==>
                    |e'.results| - |e.results| < |configs|
                    && outcome.error.SimulationError?
                    && run(configs[|e'.results| - |e.results|]) == Err(outcome.error.run))
    ensures outcome.Completed? ==>
              |e'.results| == |e.results| + |combos|
              && outcome.metrics.Keys == (set m | m in e.targetMetrics)
              && (forall m :: m in outcome.metrics ==>
                    outcome.metrics[m] == Column(e'.results, m, Count(e.targetMetrics, m)))
              && outcome.labels == Labels(combos)
    ensures outcome.Completed? && e.results == [] && NoDuplicates(e.targetMetrics) ==>
              forall m :: m in outcome.metrics ==> |outcome.metrics[m]| == |combos|
  {
    var configs := GenerateConfigs(e.baseConfig, combos);
    if configs.Err? {
      return e, Failed(ConfigError(configs.error));
    }
    assert |configs.value| == |combos|;
    var results, failure := RunSimulations(e.results, configs.value, run);
    assert Recorded(e.results, results, configs.value, run);
    e' := e.(results := results);
    if failure.Some? {
      outcome := Failed(SimulationError(failure.value));
      return;
    }
    assert |results| == |e.results| + |combos|;
    var metrics := ExtractMetrics(results, e.targetMetrics);
    outcome := Completed(metrics, Labels(combos));
    assert e.results == [] ==> |results| == |combos|;
  }
}

=== FILE: pyfloat.dfy ===
/** Python's `float(str)` conversion, over exact reals.

    Accepted, as CPython accepts them: surrounding whitespace (see
    `IsFloatSpace`: not every character `str.isspace` accepts), one optional
    sign, `inf`/`infinity`/`nan` in any letter case, and decimal literals
    `[digits] "." digits | digits ["."]` with an optional exponent
    `(e|E) [sign] digits`; a single underscore may separate two digits
    anywhere in the text. The value is kept exact: there is no rounding to
    the nearest double and no overflow to infinity. */
module PyFloat {
  import opened Results
  import opened PyText

  datatype Float = Finite(value: real) | Infinite(negative: bool) | NaN

  /** Python's `x * 1000` on a float. */
  function TimesThousand(x: Float): Float
  {
    match x
    case Finite(v) => Finite(v * 1000.0)
    case Infinite(neg) => Infinite(neg)
    case NaN => NaN
  }

  function Pow10(n: nat): (p: nat)
    ensures p >= 1
  {
    if n == 0 then 1 else 10 * Pow10(n - 1)
  }

  /** `digits × 10^exponent`. */
  datatype Decimal = Decimal(digits: nat, exponent: int) {
    function Value(): real
    {
      Scale(digits as real, exponent)
    }
  }

  /** `x × 10^e`, one factor of ten at a time. */
  function Scale(x: real, e: int): real
    decreases if e >= 0 then e else -e
  {
    if e == 0 then x
    else if e > 0 then Scale(x, e - 1) * 10.0
    else Scale(x, e + 1) / 10.0
  }

  /** Scaling down by `n` places divides by `10^n`. */
  lemma {:induction false} ScaleDown(x: real, n: nat)
    ensures Scale(x, -(n as int)) == x / Pow10(n) as real
  {
    if n > 0 {
      ScaleDown(x, n - 1);
      var p := Pow10(n - 1) as real;
      assert Pow10(n) as real == 10.0 * p;
      assert Scale(x, -(n as int)) == (x / p) / 10.0;
      DivideTwice(x, p, 10.0);
    }
  }

  lemma DivideTwice(x: real, p: real, q: real)
    requires p > 0.0 && q > 0.0
    ensures (x / p) / q == x / (q * p)
  {
  }

  /** CPython's underscore rule: every `_` sits between two digits. The
      text neither starts nor ends with one, and of two neighbours, one
      that is `_` has a digit next to it. */
  predicate UnderscoresValid(s: string) {
    && (|s| > 0 ==> s[0] != '_' && s[|s| - 1] != '_')
    && forall i, j :: 0 <= i < |s| && 0 <= j < |s| && j == i + 1 ==>
      (s[i] == '_' ==> IsDigit(s[j])) && (s[j] == '_' ==> IsDigit(s[i]))
  }

  /** The rule above, stated for each underscore. */
  lemma UnderscoreBetweenDigits(s: string, i: nat)
    requires UnderscoresValid(s) && i < |s| && s[i] == '_'
    ensures 0 < i < |s| - 1 && IsDigit(s[i - 1]) && IsDigit(s[i + 1])
  {
    var _ := s[i - 1];
    var _ := s[i + 1];
  }

  function RemoveUnderscores(s: string): (r: string)
    ensures '_' !in r
    ensures '_' !in s ==> r == s
    ensures HasDigit(r) ==> HasDigit(s)
  {
    if |s| == 0 then ""
    else
      var rest := RemoveUnderscores(s[1..]);
      assert HasDigit(rest) ==> HasDigit(s) by {
        if HasDigit(rest) {
          HasDigitInSuffix(s, 1);
        }
      }
      if s[0] == '_' then rest else [s[0]] + rest
  }

  predicate HasDigit(s: string) {
    exists i :: 0 <= i < |s| && IsDigit(s[i])
  }

  lemma HasDigitInSuffix(s: string, n: nat)
    requires n <= |s|
    requires HasDigit(s[n..])
    ensures HasDigit(s)
  {
    var i :| 0 <= i < |s| - n && IsDigit(s[n..][i]);
    assert s[n + i] == s[n..][i];
  }

  lemma HasDigitInSlice(s: string, a: nat, b: nat)
    requires a <= b <= |s|
    requires HasDigit(s[a..b])
    ensures HasDigit(s)
  {
    var i :| 0 <= i < b - a && IsDigit(s[a..b][i]);
    assert s[a + i] == s[a..b][i];
  }

  function AsciiLower(s: string): (r: string)
    ensures |r| == |s|
  {
    if |s| == 0 then ""
    else
      var c := s[0];
      [if 'A' <= c <= 'Z' then (c as int + 32) as char else c] + AsciiLower(s[1..])
  }

  /** Index of the first `e` or `E`. */
  function ExponentMark(s: string): (r: Option<nat>)
    ensures r.Some? ==> r.value < |s| && (s[r.value] == 'e' || s[r.value] == 'E')
    ensures r.Some? ==> forall j :: 0 <= j < r.value ==> s[j] != 'e' && s[j] != 'E'
    ensures r.None? ==> forall j :: 0 <= j < |s| ==> s[j] != 'e' && s[j] != 'E'
  {
    if |s| == 0 then None
    else if s[0] == 'e' || s[0] == 'E' then Some(0)
    else match ExponentMark(s[1..])
      case None => None
      case Some(i) => Some(i + 1)
  }

  /** `[digits] "." digits | digits ["."]`, underscores already removed. */
  function ParseMantissa(m: string): (r: Option<Decimal>)
    ensures r.Some? ==> HasDigit(m)
  {
    match FindFirst(m, ".")
    case None =>
      if |m| > 0 && AllDigits(m) then
        assert IsDigit(m[0]);
        Some(Decimal(DigitsValue(m), 0))
      else None
    case Some(d) =>
      var whole := m[..d];
      var fraction := m[d + 1..];
      if |whole| + |fraction| > 0 && AllDigits(whole) && AllDigits(fraction) then
        assert HasDigit(m) by {
          if |whole| > 0 {
            assert IsDigit(m[0]);
          } else {
            assert IsDigit(m[d + 1]);
          }
        }
        Some(Decimal(DigitsValue(whole + fraction), -|fraction|))
      else None
  }

  /** `[sign] digits` after the exponent mark. */
  function ParseExponent(x: string): Option<int>
  {
    var negative := |x| > 0 && x[0] == '-';
    var digits := if |x| > 0 && (x[0] == '+' || x[0] == '-') then x[1..] else x;
    if |digits| > 0 && AllDigits(digits) then
      var magnitude: int := DigitsValue(digits);
      Some(if negative then -magnitude else magnitude)
    else None
  }

  /** An unsigned decimal literal with an optional exponent. */
  function ParseDecimal(body: string): (r: Option<Decimal>)
    ensures r.Some? ==> HasDigit(body)
  {
    match ExponentMark(body)
    case None => ParseMantissa(body)
    case Some(e) =>
      var m :- ParseMantissa(body[..e]);
      var x :- ParseExponent(body[e + 1..]);
      HasDigitInSlice(body, 0, e);
      Some(Decimal(m.digits, m.exponent + x))
  }

  /** Python's `float(s)`; `None` where Python raises ValueError. A finite
      result needs at least one digit in the text. */
  function ParseFloat(s: string): (r: Option<Float>)
    ensures r.Some? ==> UnderscoresValid(s)
    ensures r.Some? && r.value.Finite? ==> HasDigit(s)
  {
    if !UnderscoresValid(s) then None
    else
      var u := RemoveUnderscores(s);
      var r := ParseStripped(FloatStrip(u));
      if r.Some? && r.value.Finite? then
        StripKeepsDigits(u);
        r
      else r
  }

  /** The text of a float once whitespace and underscores are gone. */
  function ParseStripped(t: string): (r: Option<Float>)
    ensures r.Some? && r.value.Finite? ==> HasDigit(t)
  {
    var negative := |t| > 0 && t[0] == '-';
    var signed := |t| > 0 && (t[0] == '+' || t[0] == '-');
    var body := if signed then t[1..] else t;
    var word := AsciiLower(body);
    if word == "inf" || word == "infinity" then Some(Infinite(negative))
    else if word == "nan" then Some(NaN)
    else match ParseDecimal(body)
      case None => None
      case Some(d) =>
        if signed then
          HasDigitInSuffix(t, 1);
          Some(Finite(if negative then -d.Value() else d.Value()))
        else
          Some(Finite(d.Value()))
  }

  /** The whitespace `float()` removes around its text. CPython first
      turns every non-ASCII whitespace character into a space and then
      strips only the ASCII whitespace characters space, `\t`, `\n`, `\v`,
      `\f` and `\r`. The information separators U+001C..U+001F, which
      `str.isspace` counts as whitespace, are ASCII and so are never
      stripped; no literal accepts them. A non-ASCII whitespace character
      inside the text is rejected either way. */
  predicate IsFloatSpace(c: char) {
    IsSpace(c) && !('\U{1C}' <= c <= '\U{1F}')
  }

  /** The text without its leading `float()` whitespace. */
  function TrimLeft(s: string): (r: string)
    ensures |r| <= |s|
    decreases |s|
  {
    if |s| > 0 && IsFloatSpace(s[0]) then TrimLeft(s[1..]) else s
  }

  /** `TrimLeft` drops exactly the leading run of `float()` whitespace. */
  lemma {:induction false} TrimLeftShape(s: string)
    ensures TrimLeft(s) == s[|s| - |TrimLeft(s)|..]
    ensures TrimLeft(s) == [] || !IsFloatSpace(TrimLeft(s)[0])
    ensures forall k :: 0 <= k < |s| - |TrimLeft(s)| ==> IsFloatSpace(s[k])
    decreases |s|
  {
    if |s| > 0 && IsFloatSpace(s[0]) {
      var r := TrimLeft(s[1..]);
      TrimLeftShape(s[1..]);
      assert s[1..][|s| - 1 - |r|..] == s[|s| - |r|..];
      assert forall k :: 1 <= k < |s| - |r| ==> s[k] == s[1..][k - 1];
    }
  }

  /** The text without its trailing `float()` whitespace. */
  function TrimRight(s: string): (r: string)
    ensures |r| <= |s|
    decreases |s|
  {
    if |s| > 0 && IsFloatSpace(s[|s| - 1]) then TrimRight(s[..|s| - 1]) else s
  }

  /** `TrimRight` drops exactly the trailing run of `float()` whitespace. */
  lemma {:induction false} TrimRightShape(s: string)
    ensures TrimRight(s) == s[..|TrimRight(s)|]
    ensures TrimRight(s) == [] || !IsFloatSpace(TrimRight(s)[|TrimRight(s)| - 1])
    ensures forall k :: |TrimRight(s)| <= k < |s| ==> IsFloatSpace(s[k])
    decreases |s|
  {
    if |s| > 0 && IsFloatSpace(s[|s| - 1]) {
      var r := TrimRight(s[..|s| - 1]);
      TrimRightShape(s[..|s| - 1]);
      assert s[..|s| - 1][..|r|] == s[..|r|];
    }
  }

  /** The text `float()` parses once its surrounding whitespace is gone. */
  function FloatStrip(s: string): string
  {
    TrimRight(TrimLeft(s))
  }

  lemma StripKeepsDigits(u: string)
    requires HasDigit(FloatStrip(u))
    ensures HasDigit(u)
  {
    var l := TrimLeft(u);
    var t := TrimRight(l);
    TrimLeftShape(u);
    TrimRightShape(l);
    var k :| 0 <= k < |t| && IsDigit(t[k]);
    assert t[k] == l[k];
    assert l[k] == u[|u| - |l| + k];
  }

  /** Text that neither starts nor ends with `float()` whitespace is its own
      stripped text. */
  lemma FloatStripPlain(s: string)
    requires |s| > 0 && !IsFloatSpace(s[0]) && !IsFloatSpace(s[|s| - 1])
    ensures FloatStrip(s) == s
  {
    assert TrimLeft(s) == s;
  }

  /** A text starting with an information separator U+001C..U+001F, which
      `float()` does not strip, is not a number. */
  lemma {:induction false} SeparatorRejected(c: char, t: string)
    requires '\U{1C}' <= c <= '\U{1F}'
    ensures ParseFloat([c] + t) == None
  {
    var s := [c] + t;
    if UnderscoresValid(s) {
      var u := RemoveUnderscores(s);
      assert s[1..] == t;
      assert u == [c] + RemoveUnderscores(t);
      assert TrimLeft(u) == u;
      var v := FloatStrip(u);
      TrimRightShape(u);
      assert |v| > 0 && v[0] == c by {
        assert u[0] == c && !IsFloatSpace(u[0]);
      }
      StrippedSeparator(v);
    }
  }

  /** No literal, infinity or nan starts with an information separator. */
  lemma StrippedSeparator(v: string)
    requires |v| > 0 && '\U{1C}' <= v[0] <= '\U{1F}'
    ensures ParseStripped(v) == None
  {
    assert AsciiLower(v)[0] == v[0];
    match ExponentMark(v)
    case None =>
      MantissaSeparator(v);
    case Some(e) =>
      assert e > 0;
      assert v[..e][0] == v[0];
      MantissaSeparator(v[..e]);
  }

  lemma MantissaSeparator(m: string)
    requires |m| > 0 && '\U{1C}' <= m[0] <= '\U{1F}'
    ensures ParseMantissa(m) == None
  {
    match FindFirst(m, ".")
    case None =>
      assert !IsDigit(m[0]);
    case Some(d) =>
      assert m[d + 0] == "."[0];
      assert d > 0;
      assert m[..d][0] == m[0];
      assert !IsDigit(m[..d][0]);
  }

  /** The characters whose lower case is `k`: `k`, `K` and the Kelvin sign. */
  predicate IsKChar(c: char) {
    c == 'k' || c == 'K' || c == '\U{212A}'
  }

  /** A text ending in a `k` letter is not a number: no literal, infinity or
      nan ends in one, whatever precedes it. */
  lemma {:induction false} TrailingKRejected(t: string, c: char)
    requires IsKChar(c)
    ensures ParseFloat(t + [c]) == None
  {
    var s := t + [c];
    if UnderscoresValid(s) {
      var u := RemoveUnderscores(s);
      RemoveUnderscoresSnoc(t, c);
      var l := TrimLeft(u);
      TrimLeftShape(u);
      assert !IsFloatSpace(u[|u| - 1]);
      assert |l| > 0 && l[|l| - 1] == c;
      assert TrimRight(l) == l;
      StrippedTrailingK(FloatStrip(u), c);
    }
  }

  /** Dropping underscores keeps a last character that is not one. */
  lemma {:induction false} RemoveUnderscoresSnoc(t: string, c: char)
    requires c != '_'
    ensures RemoveUnderscores(t + [c]) == RemoveUnderscores(t) + [c]
    decreases |t|
  {
    if |t| > 0 {
      assert (t + [c])[1..] == t[1..] + [c];
      RemoveUnderscoresSnoc(t[1..], c);
    } else {
      assert RemoveUnderscores([c]) == [c] + RemoveUnderscores([c][1..]);
    }
  }

  /** `AsciiLower` works character by character. */
  lemma {:induction false} AsciiLowerAt(s: string, i: nat)
    requires i < |s|
    ensures AsciiLower(s)[i] == if 'A' <= s[i] <= 'Z' then (s[i] as int + 32) as char else s[i]
    decreases i
  {
    if i > 0 {
      AsciiLowerAt(s[1..], i - 1);
    }
  }

  lemma StrippedTrailingK(v: string, c: char)
    requires IsKChar(c) && |v| > 0 && v[|v| - 1] == c
    ensures ParseStripped(v) == None
  {
    var signed := v[0] == '+' || v[0] == '-';
    var body := if signed then v[1..] else v;
    assert |body| > 0 && body[|body| - 1] == c;
    AsciiLowerAt(body, |body| - 1);
    var last := AsciiLower(body)[|body| - 1];
    assert last != 'f' && last != 'y' && last != 'n';
    DecimalTrailingK(body, c);
  }

  lemma DecimalTrailingK(b: string, c: char)
    requires IsKChar(c) && |b| > 0 && b[|b| - 1] == c
    ensures ParseDecimal(b) == None
  {
    match ExponentMark(b)
    case None =>
      MantissaTrailingK(b, c);
    case Some(e) =>
      var x := b[e + 1..];
      assert |x| > 0 && x[|x| - 1] == c;
      var digits := if x[0] == '+' || x[0] == '-' then x[1..] else x;
      assert |digits| == 0 || digits[|digits| - 1] == c;
  }

  lemma MantissaTrailingK(m: string, c: char)
    requires IsKChar(c) && |m| > 0 && m[|m| - 1] == c
    ensures ParseMantissa(m) == None
  {
    match FindFirst(m, ".")
    case None =>
      assert !IsDigit(m[|m| - 1]);
    case Some(d) =>
      assert m[d + 0] == "."[0];
      var fraction := m[d + 1..];
      assert |fraction| > 0 && fraction[|fraction| - 1] == c;
      assert !IsDigit(fraction[|fraction| - 1]);
  }

  /** Digits of a natural number, then more digits, read as one number. */
  lemma {:induction false} DigitsValueAppend(a: string, b: string)
    requires AllDigits(a) && AllDigits(b)
    ensures AllDigits(a + b)
    ensures DigitsValue(a + b) == DigitsValue(a) * Pow10(|b|) + DigitsValue(b)
    decreases |b|
  {
    if |b| == 0 {
      assert a + b == a;
    } else {
      var b' := b[..|b| - 1];
      var last := DigitValue(b[|b| - 1]);
      assert (a + b)[..|a + b| - 1] == a + b';
      assert (a + b)[|a + b| - 1] == b[|b| - 1];
      DigitsValueAppend(a, b');
      ShiftByTen(DigitsValue(a), Pow10(|b'|), DigitsValue(b'));
    }
  }

  lemma ShiftByTen(x: nat, p: nat, y: nat)
    ensures (x * p + y) * 10 == x * (10 * p) + y * 10
  {
  }

  /** A string of digits is parsed as its own numeric value. */
  lemma ParseUnsignedDigits(digits: string)
    requires |digits| > 0 && AllDigits(digits)
    ensures ParseDecimal(digits) == Some(Decimal(DigitsValue(digits), 0))
  {
    forall j | 0 <= j < |digits|
      ensures digits[j] != 'e' && digits[j] != 'E'
    {
      assert IsDigit(digits[j]);
    }
    forall j | 0 <= j <= |digits| - 1
      ensures !OccursAt(digits, ".", j)
    {
      assert IsDigit(digits[j + 0]);
    }
  }

  /** No word of letters starts with a digit. */
  lemma DigitsAreNoWord(body: string)
    requires |body| > 0 && IsDigit(body[0])
    ensures AsciiLower(body) != "inf" && AsciiLower(body) != "infinity"
    ensures AsciiLower(body) != "nan"
  {
    assert AsciiLower(body)[0] == body[0];
  }

  /** Text without underscores or surrounding whitespace goes straight to
      the literal parser. */
  lemma ParseFloatPlain(s: string)
    requires |s| > 0 && '_' !in s
    requires !IsSpace(s[0]) && !IsSpace(s[|s| - 1])
    ensures ParseFloat(s) == ParseStripped(s)
  {
    assert UnderscoresValid(s) by {
      forall i | 0 <= i < |s|
        ensures s[i] != '_'
      {
        assert s[i] in s;
      }
    }
    FloatStripPlain(s);
  }

  /** An unsigned literal starting with a digit is a finite number. */
  lemma ParseStrippedLiteral(body: string, d: Decimal)
    requires |body| > 0 && IsDigit(body[0])
    requires ParseDecimal(body) == Some(d)
    ensures ParseStripped(body) == Some(Finite(d.Value()))
  {
    DigitsAreNoWord(body);
  }

  /** The same literal after a minus sign is the negated number. */
  lemma ParseStrippedNegated(body: string, d: Decimal)
    requires |body| > 0 && IsDigit(body[0])
    requires ParseDecimal(body) == Some(d)
    ensures ParseStripped("-" + body) == Some(Finite(-d.Value()))
  {
    DigitsAreNoWord(body);
    assert ("-" + body)[1..] == body;
  }

  lemma NoUnderscoreInDigits(digits: string)
    requires AllDigits(digits)
    ensures '_' !in digits
    ensures '_' !in "-" + digits
  {
    forall k | 0 <= k < |digits|
      ensures digits[k] != '_'
    {
      assert IsDigit(digits[k]);
    }
    forall k | 0 <= k < |"-" + digits|
      ensures ("-" + digits)[k] != '_'
    {
      if k > 0 {
        assert ("-" + digits)[k] == digits[k - 1];
      }
    }
  }

  /** A plain digit string whose literal has value `v` reads as `v`. */
  lemma ParseDigits(digits: string, v: nat)
    requires |digits| > 0 && AllDigits(digits)
    requires ParseDecimal(digits) == Some(Decimal(v, 0))
    ensures ParseFloat(digits) == Some(Finite(v as real))
  {
    ParseStrippedLiteral(digits, Decimal(v, 0));
    WholeDecimal(v);
    PlainDigits(digits);
  }

  lemma PlainDigits(digits: string)
    requires |digits| > 0 && AllDigits(digits)
    ensures ParseFloat(digits) == ParseStripped(digits)
  {
    NoUnderscoreInDigits(digits);
    assert IsDigit(digits[0]) && IsDigit(digits[|digits| - 1]);
    ParseFloatPlain(digits);
  }

  /** The same digits after a minus sign read as `i`, the negation of `v`. */
  lemma ParseNegatedDigits(digits: string, v: nat, i: int)
    requires |digits| > 0 && AllDigits(digits)
    requires ParseDecimal(digits) == Some(Decimal(v, 0)) && v == -i
    ensures ParseFloat("-" + digits) == Some(Finite(i as real))
  {
    StrippedNegatedDigits(digits, v, i);
    PlainNegatedDigits(digits);
  }

  lemma StrippedNegatedDigits(digits: string, v: nat, i: int)
    requires |digits| > 0 && AllDigits(digits)
    requires ParseDecimal(digits) == Some(Decimal(v, 0)) && v == -i
    ensures ParseStripped("-" + digits) == Some(Finite(i as real))
  {
    ParseStrippedNegated(digits, Decimal(v, 0));
    WholeDecimal(v);
    NegatedReal(v, i);
  }

  lemma PlainNegatedDigits(digits: string)
    requires |digits| > 0 && AllDigits(digits)
    ensures ParseFloat("-" + digits) == ParseStripped("-" + digits)
  {
    var neg := "-" + digits;
    NoUnderscoreInDigits(digits);
    assert neg[0] == '-' && neg[|neg| - 1] == digits[|digits| - 1];
    assert IsDigit(digits[|digits| - 1]);
    ParseFloatPlain(neg);
  }

  /** `str(n)` is a literal with value `n`. */
  lemma NatStringDecimal(n: nat)
    ensures ParseDecimal(NatToString(n)) == Some(Decimal(n, 0))
  {
    ParseUnsignedDigits(NatToString(n));
  }

  /** A decimal with exponent zero is its digits. */
  lemma WholeDecimal(v: nat)
    ensures Decimal(v, 0).Value() == v as real
  {
  }

  /** `float(str(n)) == n`. */
  lemma ParseNatString(n: nat)
    ensures ParseFloat(NatToString(n)) == Some(Finite(n as real))
  {
    NatStringDecimal(n);
    ParseDigits(NatToString(n), n);
  }


  /** `float(str(i)) == i` for every integer `i`. */
  lemma ParseIntString(i: int)
    ensures ParseFloat(IntToString(i)) == Some(Finite(i as real))
  {
    if i < 0 {
      ParseNegativeIntString(i);
    } else {
      ParseNatString(i);
    }
  }

  lemma ParseNegativeIntString(i: int)
    requires i < 0
    ensures ParseFloat(IntToString(i)) == Some(Finite(i as real))
  {
    NegativeIntText(i);
    NatStringDecimal(-i);
    ParseNegatedDigits(NatToString(-i), -i, i);
  }

  lemma NegativeIntText(i: int)
    requires i < 0
    ensures IntToString(i) == "-" + NatToString(-i)
  {
  }

  lemma NegatedReal(n: nat, i: int)
    requires n == -i
    ensures -(n as real) == i as real
  {
  }

  /** Where the characters of `<w>.<f>` sit. */
  lemma PointStringShape(w: string, f: string)
    requires |w| > 0 && AllDigits(w) && AllDigits(f)
    ensures var s := w + "." + f;
      && (forall k :: 0 <= k < |s| && k != |w| ==> IsDigit(s[k]))
      && s[|w|] == '.'
      && s[..|w|] == w
      && s[|w| + 1..] == f
  {
    var s := w + "." + f;
    forall k | 0 <= k < |s| && k != |w|
      ensures IsDigit(s[k])
    {
      if k < |w| {
        assert s[k] == w[k];
      } else {
        assert s[k] == f[k - |w| - 1];
      }
    }
    assert s[..|w|] == w;
    assert s[|w| + 1..] == f;
  }

  /** The mantissa `<w>.<f>` reads as the digits of `w` and `f` together,
      shifted right by `|f|` places. */
  lemma ParsePointMantissa(w: string, f: string)
    requires |w| > 0 && AllDigits(w) && AllDigits(f)
    ensures ParseDecimal(w + "." + f) == Some(Decimal(DigitsValue(w + f), -|f|))
  {
    var s := w + "." + f;
    PointStringShape(w, f);
    assert ExponentMark(s) == None by {
      forall j | 0 <= j < |s|
        ensures s[j] != 'e' && s[j] != 'E'
      {
      }
    }
    assert FindFirst(s, ".") == Some(|w|) by {
      assert OccursAt(s, ".", |w|);
      forall j | 0 <= j < |w|
        ensures !OccursAt(s, ".", j)
      {
        assert IsDigit(s[j + 0]);
      }
    }
  }

  lemma PointValue(a: nat, f: nat, n: nat, m: nat)
    requires m == a * Pow10(n) + f
    ensures Decimal(m, -(n as int)).Value() == a as real + f as real / Pow10(n) as real
  {
    var p := Pow10(n);
    ProductAsReal(a, p, f, m);
    if n > 0 {
      NegativeExponentValue(m, n);
      DivideSum(a as real, f as real, p as real);
    }
  }

  lemma ProductAsReal(a: nat, p: nat, f: nat, m: nat)
    requires m == a * p + f
    ensures m as real == a as real * p as real + f as real
  {
  }

  lemma NegativeExponentValue(m: nat, n: nat)
    requires n > 0
    ensures Decimal(m, -(n as int)).Value() == m as real / Pow10(n) as real
  {
    ScaleDown(m as real, n);
  }

  lemma DivideSum(a: real, f: real, p: real)
    requires p > 0.0
    ensures (a * p + f) / p == a + f / p
  {
  }

  /** `float("<w>.<f>")` for digit strings `w` (non-empty) and `f`. */
  lemma ParsePointDecimal(w: string, f: string, v: real)
    requires |w| > 0 && AllDigits(w) && AllDigits(f)
    requires v == Decimal(DigitsValue(w + f), -|f|).Value()
    ensures ParseFloat(w + "." + f) == Some(Finite(v))
  {
    var s := w + "." + f;
    var d := Decimal(DigitsValue(w + f), -|f|);
    ParsePointMantissa(w, f);
    PointStringShape(w, f);
    ParseStrippedLiteral(s, d);
    assert '_' !in s by {
      forall k | 0 <= k < |s|
        ensures s[k] != '_'
      {
      }
    }
    assert IsDigit(s[0]);
    assert !IsSpace(s[|s| - 1]) by {
      if |f| == 0 {
        assert s[|s| - 1] == '.';
      } else {
        assert IsDigit(s[|s| - 1]);
      }
    }
    ParseFloatPlain(s);
  }

  /** `float("<a>.<f>")` is `a + f / 10^|f|` for a natural `a` and a digit
      string `f`. */
  lemma ParsePointString(a: nat, f: string, v: real)
    requires AllDigits(f)
    requires v == a as real + DigitsValue(f) as real / Pow10(|f|) as real
    ensures ParseFloat(NatToString(a) + "." + f) == Some(Finite(v))
  {
    PointStringValue(a, f, v);
    ParsePointDecimal(NatToString(a), f, v);
  }

  /** The literal `<a><f>` with `|f|` fractional places has value `v`. */
  lemma PointStringValue(a: nat, f: string, v: real)
    requires AllDigits(f)
    requires v == a as real + DigitsValue(f) as real / Pow10(|f|) as real
    ensures AllDigits(NatToString(a) + f)
    ensures v == Decimal(DigitsValue(NatToString(a) + f), -|f|).Value()
  {
    var w := NatToString(a);
    DigitsValueAppend(w, f);
    PointValue(a, DigitsValue(f), |f|, DigitsValue(w + f));
  }
}

=== FILE: pytext.dfy ===
/** The handful of Python `str` operations the experiment engine relies on:
    `isspace`, `strip`, `startswith`/`endswith`, `in`, `find`, `split(sep)`,
    `sep.join` and `str(int)`. Strings are sequences of Unicode scalar values. */
module PyText {
  import opened Results

  /** Python's `str.isspace()` for one character. */
  predicate IsSpace(c: char) {
    var n := c as int;
    || (9 <= n <= 13)          // \t \n \v \f \r
    || (28 <= n <= 32)         // \x1c .. \x1f and ' '
    || n == 0x85 || n == 0xA0 || n == 0x1680
    || (0x2000 <= n <= 0x200A)
    || n == 0x2028 || n == 0x2029 || n == 0x202F || n == 0x205F || n == 0x3000
  }

  predicate AllSpace(s: string) {
    forall i :: 0 <= i < |s| ==> IsSpace(s[i])
  }

  predicate StartsWith(s: string, p: string) {
    |p| <= |s| && s[..|p|] == p
  }

  predicate EndsWith(s: string, p: string) {
    |p| <= |s| && s[|s| - |p|..] == p
  }

  /** `p` occurs in `s` starting at index `i`. */
  predicate OccursAt(s: string, p: string, i: int) {
    0 <= i && i + |p| <= |s| && forall k :: 0 <= k < |p| ==> s[i + k] == p[k]
  }

  /** Python's `p in s`. */
  predicate Contains(s: string, p: string) {
    exists i :: 0 <= i <= |s| - |p| && OccursAt(s, p, i)
  }

  /** Python's `s.find(p, from)`, as an option instead of -1. */
  function FindFrom(s: string, p: string, from: nat): (r: Option<nat>)
    ensures r.Some? ==> from <= r.value && OccursAt(s, p, r.value)
    ensures r.Some? ==> forall j :: from <= j < r.value ==> !OccursAt(s, p, j)
    ensures r.None? ==> forall j :: from <= j ==> !OccursAt(s, p, j)
    decreases |s| + 1 - from
  {
    if from + |p| > |s| then None
    else if OccursAt(s, p, from) then Some(from)
    else FindFrom(s, p, from + 1)
  }

  /** Index of the first occurrence of `p` in `s`. */
  function FindFirst(s: string, p: string): (r: Option<nat>)
    ensures r.Some? <==> Contains(s, p)
    ensures r.Some? ==> OccursAt(s, p, r.value)
    ensures r.Some? ==> forall j :: 0 <= j < r.value ==> !OccursAt(s, p, j)
  {
    FindFrom(s, p, 0)
  }

  /** An occurrence inside a prefix is an occurrence in the whole string. */
  lemma OccursInPrefix(s: string, p: string, n: nat, j: int)
    requires n <= |s|
    requires OccursAt(s[..n], p, j)
    ensures OccursAt(s, p, j)
  {
    assert s[..n][j..j + |p|] == s[j..j + |p|];
  }

  /** An occurrence inside a suffix is an occurrence in the whole string. */
  lemma OccursInSuffix(s: string, p: string, n: nat, j: int)
    requires n <= |s|
    requires OccursAt(s[n..], p, j)
    ensures OccursAt(s, p, n + j)
  {
    assert s[n..][j..j + |p|] == s[n + j..n + j + |p|];
  }

  /** Python's `sep.join(parts)`. */
  function Join(parts: seq<string>, sep: string): string
  {
    if |parts| == 0 then ""
    else if |parts| == 1 then parts[0]
    else parts[0] + sep + Join(parts[1..], sep)
  }

  /** Python's `s.split(sep)` for a non-empty separator (Python raises
      ValueError for an empty one): the pieces between non-overlapping
      occurrences of `sep`, scanned from the left. */
  function Split(s: string, sep: string): (parts: seq<string>)
    requires |sep| > 0
    ensures |parts| >= 1
    decreases |s|
  {
    match FindFirst(s, sep)
    case None => [s]
    case Some(i) => [s[..i]] + Split(s[i + |sep|..], sep)
  }

  /** The pieces of a split join back to the string, none of them contains
      the separator, and there is more than one exactly when the string
      contains the separator. */
  lemma {:induction false} SplitJoins(s: string, sep: string)
    requires |sep| > 0
    ensures |Split(s, sep)| == 1 <==> !Contains(s, sep)
    ensures Join(Split(s, sep), sep) == s
    ensures forall i :: 0 <= i < |Split(s, sep)| ==> !Contains(Split(s, sep)[i], sep)
    decreases |s|
  {
    match FindFirst(s, sep)
    case None =>
      assert Split(s, sep) == [s];
    case Some(i) =>
      var rest := Split(s[i + |sep|..], sep);
      SplitJoins(s[i + |sep|..], sep);
      SplitCons(s, sep, i, rest);
      assert Split(s, sep) == [s[..i]] + rest;
  }

  /** The piece before the first separator in front of the pieces of the
      rest: together they are a split of the whole string. */
  lemma SplitCons(s: string, sep: string, i: nat, rest: seq<string>)
    requires |sep| > 0 && FindFirst(s, sep) == Some(i)
    requires |rest| >= 1 && Join(rest, sep) == s[i + |sep|..]
    requires forall k :: 0 <= k < |rest| ==> !Contains(rest[k], sep)
    ensures Contains(s, sep)
    ensures Join([s[..i]] + rest, sep) == s
    ensures forall k :: 0 <= k < |[s[..i]] + rest| ==> !Contains(([s[..i]] + rest)[k], sep)
  {
    NoEarlierOccurrence(s, sep, i);
    JoinAround(s, sep, i, rest);
    PiecesCons(s[..i], rest, sep);
  }

  /** Joining the text before an occurrence to pieces that join to the
      text after it gives the whole string back. */
  lemma JoinAround(s: string, sep: string, i: nat, rest: seq<string>)
    requires OccursAt(s, sep, i)
    requires |rest| >= 1 && Join(rest, sep) == s[i + |sep|..]
    ensures Join([s[..i]] + rest, sep) == s
  {
    JoinCons(s[..i], rest, sep);
    Around(s, sep, i);
  }

  /** No piece of `[h] + rest` contains `sep` when none of `h` and `rest` does. */
  lemma PiecesCons(h: string, rest: seq<string>, sep: string)
    requires !Contains(h, sep)
    requires forall k :: 0 <= k < |rest| ==> !Contains(rest[k], sep)
    ensures forall k :: 0 <= k < |[h] + rest| ==> !Contains(([h] + rest)[k], sep)
  {
    var parts := [h] + rest;
    assert forall k :: 1 <= k < |parts| ==> parts[k] == rest[k - 1];
  }

  /** A string is the text before an occurrence, the occurrence, and the
      text after it. */
  lemma Around(s: string, p: string, i: nat)
    requires OccursAt(s, p, i)
    ensures s == s[..i] + p + s[i + |p|..]
  {
    assert s == s[..i] + s[i..i + |p|] + s[i + |p|..];
  }

  lemma JoinCons(h: string, rest: seq<string>, sep: string)
    requires |rest| >= 1
    ensures Join([h] + rest, sep) == h + sep + Join(rest, sep)
  {
    assert ([h] + rest)[1..] == rest;
  }

  /** The text before the first occurrence of `sep` does not contain `sep`. */
  lemma NoEarlierOccurrence(s: string, sep: string, i: nat)
    requires |sep| > 0 && i <= |s|
    requires forall j :: 0 <= j < i ==> !OccursAt(s, sep, j)
    ensures !Contains(s[..i], sep)
  {
    if Contains(s[..i], sep) {
      var j :| 0 <= j <= i - |sep| && OccursAt(s[..i], sep, j);
      OccursInPrefix(s, sep, i, j);
    }
  }

  /** The first piece of a split is the text up to the first occurrence of
      the separator, or the whole string when there is none. */
  lemma SplitHead(s: string, sep: string)
    requires |sep| > 0
    ensures StartsWith(s, Split(s, sep)[0])
    ensures !Contains(Split(s, sep)[0], sep)
    ensures Contains(s, sep) ==>
      OccursAt(s, sep, |Split(s, sep)[0]|) && FindFirst(s, sep) == Some(|Split(s, sep)[0]|)
    ensures !Contains(s, sep) ==> Split(s, sep)[0] == s
  {
    SplitJoins(s, sep);
  }

  /** The last piece of a split is the text after the last occurrence of
      the separator, or the whole string when there is none. */
  lemma SplitLast(s: string, sep: string)
    requires |sep| > 0
    ensures EndsWith(s, Last(Split(s, sep)))
    ensures !Contains(Last(Split(s, sep)), sep)
    ensures |Last(Split(s, sep))| < |s| ==> OccursAt(s, sep, |s| - |Last(Split(s, sep))| - |sep|)
  {
    SplitJoins(s, sep);
    SplitLastAfterSeparator(s, sep);
  }

  /** `l` is the text after the last occurrence of `sep` in `s`. */
  predicate LastPiece(s: string, sep: string, l: string) {
    && EndsWith(s, l)
    && (|l| < |s| ==> OccursAt(s, sep, |s| - |l| - |sep|))
  }

  lemma {:induction false} SplitLastAfterSeparator(s: string, sep: string)
    requires |sep| > 0
    ensures LastPiece(s, sep, Last(Split(s, sep)))
    decreases |s|
  {
    match FindFirst(s, sep)
    case None =>
      assert Split(s, sep) == [s];
      assert s[|s| - |s|..] == s;
    case Some(i) =>
      var tail := s[i + |sep|..];
      SplitLastAfterSeparator(tail, sep);
      SplitLastOfRest(s, sep, i);
      LastPieceExtend(s, sep, i, Last(Split(tail, sep)));
  }

  /** The last piece of a non-empty list of pieces. */
  function Last(parts: seq<string>): string
    requires |parts| >= 1
  {
    parts[|parts| - 1]
  }

  lemma LastOfCons(parts: seq<string>, h: string, rest: seq<string>)
    requires |rest| >= 1 && parts == [h] + rest
    ensures Last(parts) == Last(rest)
  {
  }

  /** After a first separator, the last piece of the split is the last
      piece of the text after that separator. */
  lemma SplitLastOfRest(s: string, sep: string, i: nat)
    requires |sep| > 0 && FindFirst(s, sep) == Some(i)
    ensures Last(Split(s, sep)) == Last(Split(s[i + |sep|..], sep))
  {
    SplitAtFirst(s, sep, i);
    LastOfCons(Split(s, sep), s[..i], Split(s[i + |sep|..], sep));
  }

  /** The last piece after the first separator is the last piece of the whole. */
  lemma LastPieceExtend(s: string, sep: string, i: nat, l: string)
    requires OccursAt(s, sep, i)
    requires LastPiece(s[i + |sep|..], sep, l)
    ensures LastPiece(s, sep, l)
  {
    var tail := s[i + |sep|..];
    var k := |s| - |l| - |sep|;
    SuffixOfSuffix(s, i + |sep|, l);
    if |l| < |tail| {
      OccursInSuffix(s, sep, i + |sep|, |tail| - |l| - |sep|);
      assert i + |sep| + (|tail| - |l| - |sep|) == k;
    } else {
      assert k == i;
    }
    assert OccursAt(s, sep, k);
  }

  lemma SuffixOfSuffix(s: string, n: nat, l: string)
    requires n <= |s|
    requires EndsWith(s[n..], l)
    ensures EndsWith(s, l)
  {
    assert s[n..][|s| - n - |l|..] == s[|s| - |l|..];
  }

  /** Splitting at the first occurrence: the text before it, then the
      pieces of the text after it. */
  lemma {:induction false} SplitAtFirst(s: string, sep: string, i: nat)
    requires |sep| > 0 && FindFirst(s, sep) == Some(i)
    ensures Split(s, sep) == [s[..i]] + Split(s[i + |sep|..], sep)
  {
  }

  /** No occurrence of `p` in `a + p + b` starts inside `a` and ends
      inside the `p` that follows it. */
  predicate NoStraddle(a: string, p: string, b: string) {
    forall j :: 0 <= j < |a| < j + |p| ==> !OccursAt(a + p + b, p, j)
  }

  /** A pattern none of whose proper prefixes is also a suffix. */
  predicate Unbordered(p: string) {
    forall k :: 0 < k < |p| ==> p[..k] != p[|p| - k..]
  }

  /** When `a` holds no occurrence of `p` and none straddles the seam, the
      first occurrence in `a + p + b` is the one right after `a`. */
  lemma FindAfter(a: string, p: string, b: string)
    requires |p| > 0 && !Contains(a, p) && NoStraddle(a, p, b)
    ensures FindFirst(a + p + b, p) == Some(|a|)
  {
    SeamOccurrence(a, p, b);
    forall j | 0 <= j < |a|
      ensures !OccursAt(a + p + b, p, j)
    {
      NoOccurrenceBefore(a, p, b, j);
    }
    FirstOccurrence(a + p + b, p, |a|);
  }

  lemma SeamOccurrence(a: string, p: string, b: string)
    ensures OccursAt(a + p + b, p, |a|)
  {
    var s := a + p + b;
    forall k | 0 <= k < |p|
      ensures s[|a| + k] == p[k]
    {
    }
  }

  /** An occurrence starting inside `a` would lie inside `a` or straddle. */
  lemma NoOccurrenceBefore(a: string, p: string, b: string, j: nat)
    requires !Contains(a, p) && NoStraddle(a, p, b) && j < |a|
    ensures !OccursAt(a + p + b, p, j)
  {
    if j + |p| <= |a| {
      OccursInLeft(a, p + b, p, j);
      assert a + p + b == a + (p + b);
      assert !OccursAt(a, p, j);
    }
  }

  /** An occurrence that ends within the left part lies in the left part. */
  lemma OccursInLeft(a: string, rest: string, p: string, j: nat)
    requires j + |p| <= |a|
    ensures OccursAt(a + rest, p, j) ==> OccursAt(a, p, j)
  {
    if OccursAt(a + rest, p, j) {
      forall k | 0 <= k < |p|
        ensures a[j + k] == p[k]
      {
        assert (a + rest)[j + k] == a[j + k];
      }
    }
  }

  /** A one-character pattern occurs where that character stands. */
  lemma OccursChar(s: string, c: char, j: int)
    requires OccursAt(s, [c], j)
    ensures 0 <= j < |s| && s[j] == c
  {
    assert s[j + 0] == [c][0];
  }

  /** An occurrence with none before it is the one `find` reports. */
  lemma FirstOccurrence(s: string, p: string, i: nat)
    requires OccursAt(s, p, i)
    requires forall j :: 0 <= j < i ==> !OccursAt(s, p, j)
    ensures FindFirst(s, p) == Some(i)
  {
  }

  /** An unbordered pattern cannot straddle a seam in front of itself. */
  lemma UnborderedNoStraddle(a: string, p: string, b: string)
    requires Unbordered(p)
    ensures NoStraddle(a, p, b)
  {
    var s := a + p + b;
    forall j | 0 <= j < |a| < j + |p|
      ensures !OccursAt(s, p, j)
    {
      var k := j + |p| - |a|;
      assert p[..k] != p[|p| - k..];
    }
  }

  /** Searching a one-character pattern is testing membership. */
  lemma ContainsChar(s: string, c: char)
    ensures Contains(s, [c]) <==> c in s
  {
    if c in s {
      var i :| 0 <= i < |s| && s[i] == c;
      assert OccursAt(s, [c], i);
    }
    if Contains(s, [c]) {
      var i :| 0 <= i <= |s| - 1 && OccursAt(s, [c], i);
      assert s[i + 0] == [c][0];
    }
  }

  /** Drops leading whitespace. */
  function StripLeft(s: string): (r: string)
    ensures EndsWith(s, r)
    ensures AllSpace(s[..|s| - |r|])
    ensures r == [] || !IsSpace(r[0])
    decreases |s|
  {
    if |s| > 0 && IsSpace(s[0]) then
      var r := StripLeft(s[1..]);
      assert s[..|s| - |r|] == [s[0]] + s[1..][..|s| - 1 - |r|];
      r
    else s
  }

  /** Drops trailing whitespace. */
  function StripRight(s: string): (r: string)
    ensures StartsWith(s, r)
    ensures AllSpace(s[|r|..])
    ensures r == [] || !IsSpace(r[|r| - 1])
    decreases |s|
  {
    if |s| > 0 && IsSpace(s[|s| - 1]) then
      var r := StripRight(s[..|s| - 1]);
      assert s[..|r|] == s[..|s| - 1][..|r|];
      assert s[|r|..] == s[..|s| - 1][|r|..] + [s[|s| - 1]];
      r
    else s
  }

  /** Python's `s.strip()` with no argument. */
  function Strip(s: string): (r: string)
    ensures r == [] || (!IsSpace(r[0]) && !IsSpace(r[|r| - 1]))
    ensures r == [] <==> AllSpace(s)
  {
    var l := StripLeft(s);
    var r := StripRight(l);
    assert r == [] ==> AllSpace(s) by {
      if r == [] {
        assert AllSpace(l[|r|..]);
        assert s == s[..|s| - |l|] + l;
      }
    }
    r
  }

  /** Surrounding whitespace is exactly what `Strip` removes. */
  lemma {:induction false} StripSurrounded(a: string, core: string, b: string)
    requires AllSpace(a) && AllSpace(b)
    requires core == [] || (!IsSpace(core[0]) && !IsSpace(core[|core| - 1]))
    ensures Strip(a + core + b) == core
  {
    if core == [] {
      assert a + core + b == a + b;
      assert AllSpace(a + b);
    } else {
      assert a + core + b == a + (core + b);
      StripLeftSpaces(a, core + b);
      assert StripLeft(core + b) == core + b;
      StripRightSpaces(core, b);
    }
  }

  lemma {:induction false} StripLeftSpaces(a: string, t: string)
    requires AllSpace(a)
    requires t == [] || !IsSpace(t[0])
    ensures StripLeft(a + t) == StripLeft(t)
    decreases |a|
  {
    if |a| > 0 {
      assert (a + t)[1..] == a[1..] + t;
      StripLeftSpaces(a[1..], t);
    } else {
      assert a + t == t;
    }
  }

  lemma {:induction false} StripRightSpaces(t: string, b: string)
    requires AllSpace(b)
    requires t != [] && !IsSpace(t[|t| - 1])
    ensures StripRight(t + b) == t
    decreases |b|
  {
    if |b| > 0 {
      assert (t + b)[..|t + b| - 1] == t + b[..|b| - 1];
      StripRightSpaces(t, b[..|b| - 1]);
    } else {
      assert t + b == t;
    }
  }

  predicate IsDigit(c: char) {
    '0' <= c <= '9'
  }

  predicate AllDigits(s: string) {
    forall i :: 0 <= i < |s| ==> IsDigit(s[i])
  }

  function DigitValue(c: char): nat
    requires IsDigit(c)
  {
    c as int - '0' as int
  }

  function DigitChar(d: nat): (c: char)
    requires d < 10
    ensures IsDigit(c) && DigitValue(c) == d
  {
    (d + '0' as int) as char
  }

  /** The number an ASCII digit string denotes in base ten. */
  function DigitsValue(s: string): nat
    requires AllDigits(s)
  {
    if |s| == 0 then 0
    else DigitsValue(s[..|s| - 1]) * 10 + DigitValue(s[|s| - 1])
  }

  /** Python's `str(n)` for a natural number. */
  function NatToString(n: nat): (r: string)
    ensures |r| >= 1 && AllDigits(r)
    ensures DigitsValue(r) == n
    ensures r[0] == '0' ==> r == "0"
    decreases n
  {
    if n < 10 then [DigitChar(n)]
    else
      var prefix := NatToString(n / 10);
      var r := prefix + [DigitChar(n % 10)];
      assert r[..|r| - 1] == prefix;
      r
  }

  /** Python's `str(i)` for an integer: a minus sign before the digits of a
      negative number. */
  function IntToString(i: int): string
  {
    if i < 0 then "-" + NatToString(-i) else NatToString(i)
  }
}

=== FILE: results.dfy ===
/** Failure-compatible wrappers shared by every module of the model.
    `Option` stands for Python's `None`-or-value, `Result` for a value or a
    raised exception. Both work with Dafny's `:-` operator. */
module Results {

  datatype Option<+T> = None | Some(value: T) {

    predicate IsFailure() {
      None?
    }

    function PropagateFailure<U>(): Option<U>
      requires None?
    {
      None
    }

    function Extract(): T
      requires Some?
    {
      value
    }
  }

  datatype Result<+T, +E> = Ok(value: T) | Err(error: E) {

    predicate IsFailure() {
      Err?
    }

    function PropagateFailure<U>(): Result<U, E>
      requires Err?
    {
      Err(error)
    }

    function Extract(): T
      requires Ok?
    {
      value
    }
  }
}

=== FILE: stat_parser.dfy ===
/** The statistics parser of the SimCache runner: the sentinel gate that
    decides whether a simulation produced statistics, the line-by-line
    reading of the statistics block into a map from statistic name to
    number, and the `k`-suffix number conversion. */
module StatParser {
  import opened Results
  import opened PyText
  import opened PyFloat

  /** The line the simulator prints right before its statistics. */
  const Sentinel: string := "sim: ** simulation statistics **"

  /** What separates a statistic from its explanation on a line. */
  const CommentMark: string := " # "

  /** Why a run yields no statistics: the output lacks the sentinel (the
      RuntimeError of the gate), the statistics block is missing when the
      parser indexes it (IndexError), or a value is not a number
      (ValueError). */
  datatype RunError = SimulationFailed | MissingStatsBlock | InvalidNumber

  type StatMap = map<string, Float>

  /** The key and value tokens read from one line. */
  datatype RawStat = RawStat(key: string, value: string)

  /** A line with its comment cut off and surrounding whitespace removed. */
  function Body(line: string): string
  {
    Strip(Split(line, CommentMark)[0])
  }

  /** The first and the last single-space separated token of a line's body. */
  function SplitStat(line: string): (r: RawStat)
    ensures IsTokenPair(Body(line), r.key, r.value)
  {
    var t := Body(line);
    Tokens(t);
    RawStat(FirstTokenOf(t), LastTokenOf(t))
  }

  /** `key` is the first and `value` the last token of the stripped text
      `t`: both are space-free, `key` starts the text and ends at a space or
      at its end, `value` ends the text and starts after a space or at its
      start, and each is empty only when the text is. */
  predicate IsTokenPair(t: string, key: string, value: string) {
    && ' ' !in key && ' ' !in value
    && StartsWith(t, key) && EndsWith(t, value)
    && (|key| < |t| ==> t[|key|] == ' ')
    && (|value| < |t| ==> t[|t| - |value| - 1] == ' ')
    && (key == [] <==> t == [])
    && (value == [] <==> t == [])
  }

  /** The first and last tokens of a stripped text. */
  lemma Tokens(t: string)
    requires t == [] || (!IsSpace(t[0]) && !IsSpace(t[|t| - 1]))
    ensures IsTokenPair(t, FirstTokenOf(t), LastTokenOf(t))
  {
    FirstToken(t);
    LastToken(t);
  }

  /** The first token of a text. */
  function FirstTokenOf(t: string): string
  {
    Split(t, " ")[0]
  }

  /** The last token of a text. */
  function LastTokenOf(t: string): string
  {
    Last(Split(t, " "))
  }

  /** The first token of a stripped text: a space-free prefix ending at the
      first space, empty only for an empty text. */
  lemma FirstToken(t: string)
    requires t == [] || !IsSpace(t[0])
    ensures ' ' !in FirstTokenOf(t)
    ensures StartsWith(t, FirstTokenOf(t))
    ensures |FirstTokenOf(t)| < |t| ==> t[|FirstTokenOf(t)|] == ' '
    ensures FirstTokenOf(t) == [] <==> t == []
  {
    var key := FirstTokenOf(t);
    SplitHead(t, " ");
    ContainsChar(key, ' ');
    if |key| < |t| {
      assert t[|key| + 0] == " "[0];
    }
  }

  /** The last token of a stripped text: a space-free suffix starting after
      the last space, empty only for an empty text. */
  lemma LastToken(t: string)
    requires t == [] || !IsSpace(t[|t| - 1])
    ensures ' ' !in LastTokenOf(t)
    ensures EndsWith(t, LastTokenOf(t))
    ensures |LastTokenOf(t)| < |t| ==> t[|t| - |LastTokenOf(t)| - 1] == ' '
    ensures LastTokenOf(t) == [] <==> t == []
  {
    LastTokenAfterSpace(t);
    ContainsChar(LastTokenOf(t), ' ');
  }

  lemma LastTokenAfterSpace(t: string)
    ensures EndsWith(t, LastTokenOf(t))
    ensures !Contains(LastTokenOf(t), " ")
    ensures |LastTokenOf(t)| < |t| ==> t[|t| - |LastTokenOf(t)| - 1] == ' '
  {
    var value := LastTokenOf(t);
    SplitLast(t, " ");
    if |value| < |t| {
      OccursChar(t, ' ', |t| - |value| - 1);
    }
  }

  /** The line adds an entry: its comment-free, stripped body is not empty
      and does not start with `ld`. */
  predicate Kept(line: string) {
    Body(line) != [] && !StartsWith(Body(line), "ld")
  }

  /** A line whose cast fails: it is kept and its value is not a number. */
  predicate Rejected(line: string) {
    Kept(line) && CastToFloatWithK(SplitStat(line).value).Err?
  }

  predicate EndsWithK(s: string) {
    |s| > 0 && IsKChar(s[|s| - 1])
  }

  /** A number token, scaled by 1000 when it ends in `k`. */
  function CastToFloatWithK(token: string): (r: Result<Float, RunError>)
    ensures r.Err? ==> r.error == InvalidNumber
    ensures r.Ok? && r.value.Finite? ==> HasDigit(token)
  {
    var scaled := EndsWithK(token);
    var number := if scaled then token[..|token| - 1] else token;
    match ParseFloat(number)
    case None => Err(InvalidNumber)
    case Some(x) =>
      if scaled then
        if x.Finite? then
          HasDigitInSlice(token, 0, |token| - 1);
          Ok(TimesThousand(x))
        else Ok(TimesThousand(x))
      else Ok(x)
  }

  /** A token that does not end in `k` casts to its plain parse. */
  lemma CastPlain(token: string)
    ensures !EndsWithK(token) ==> (CastToFloatWithK(token).Ok? <==> ParseFloat(token).Some?)
    ensures !EndsWithK(token) && ParseFloat(token).Some? ==>
      CastToFloatWithK(token) == Ok(ParseFloat(token).value)
  {
  }

  /** What reading one line does to the map. */
  datatype Effect = Skip | Put(key: string, value: Float) | Fail

  /** The effect of one line: skipped for an `ld` key or an empty body,
      otherwise its key set to its cast value, or a failure when the value
      does not cast (the cast has no other error than `InvalidNumber`). */
  function LineEffect(line: string): Effect
  {
    EffectOf(SplitStat(line))
  }

  /** The effect of a line's key and value tokens. */
  function EffectOf(raw: RawStat): Effect
  {
    if StartsWith(raw.key, "ld") then Skip
    else if raw.key != [] && raw.value != [] then
      match CastToFloatWithK(raw.value)
      case Ok(v) => Put(raw.key, v)
      case Err(_) => Fail
    else Skip
  }

  /** A line sets a value exactly when it is kept and its value casts, and
      then sets its own key to the cast value; it fails exactly when it is
      kept and its value does not cast. */
  lemma LineEffectMeaning(line: string)
    ensures LineEffect(line).Put? <==> Kept(line) && CastToFloatWithK(SplitStat(line).value).Ok?
    ensures LineEffect(line).Fail? <==> Rejected(line)
    ensures LineEffect(line).Put? ==> LineEffect(line).key == SplitStat(line).key
    ensures LineEffect(line).Put? ==> CastToFloatWithK(SplitStat(line).value) == Ok(LineEffect(line).value)
  {
    KeptIff(line);
  }

  function Apply(stats: StatMap, e: Effect): Result<StatMap, RunError>
  {
    match e
    case Skip => Ok(stats)
    case Put(k, v) => Ok(stats[k := v])
    case Fail => Err(InvalidNumber)
  }

  /** The effects of the lines applied in order, from an empty map; the
      first failure aborts. */
  function Fold(effect: string -> Effect, lines: seq<string>): (r: Result<StatMap, RunError>)
    ensures r.Err? ==> r.error == InvalidNumber
    ensures r.Err? ==> exists i :: 0 <= i < |lines| && effect(lines[i]).Fail?
    decreases |lines|
  {
    if |lines| == 0 then Ok(map[])
    else
      var init := lines[..|lines| - 1];
      match Fold(effect, init)
      case Err(e) =>
        assert forall i :: 0 <= i < |init| ==> init[i] == lines[i];
        Err(e)
      case Ok(stats) => Apply(stats, effect(lines[|lines| - 1]))
  }

  /** The lines of a statistics block read in order into a map. */
  function StatsOf(lines: seq<string>): (r: Result<StatMap, RunError>)
    ensures r.Err? ==> r.error == InvalidNumber
  {
    Fold(LineEffect, lines)
  }

  /** The segment between the first and the second sentinel, if any. */
  function StatsBlock(output: string): (r: Option<string>)
    ensures r.Some? <==> Contains(output, Sentinel)
  {
    var parts := Split(output, Sentinel);
    if |parts| < 2 then None else Some(parts[1])
  }

  /** `parse_simcache_output`: the statistics of the block after the first
      sentinel. */
  function ParseOutput(output: string): (r: Result<StatMap, RunError>)
    ensures r == Err(MissingStatsBlock) <==> !Contains(output, Sentinel)
  {
    match StatsBlock(output)
    case None => Err(MissingStatsBlock)
    case Some(block) => StatsOf(Split(block, "\n"))
  }

  /** `run_with_config` once the simulator's output is captured: the
      sentinel gate, then the parser. */
  function RunWithConfig(output: string): (r: Result<StatMap, RunError>)
    ensures r == Err(SimulationFailed) <==> !Contains(output, Sentinel)
    ensures r != Err(MissingStatsBlock)
    ensures Contains(output, Sentinel) ==> r == ParseOutput(output)
  {
    if !Contains(output, Sentinel) then Err(SimulationFailed)
    else ParseOutput(output)
  }

  /** The parser as the source writes it: a loop over the lines that skips
      `ld` keys and empty lines and overwrites earlier values. */
  method ParseSimcacheOutput(output: string) returns (r: Result<StatMap, RunError>)
    ensures r == ParseOutput(output)
  {
    var parts := Split(output, Sentinel);
    if |parts| < 2 {
      return Err(MissingStatsBlock);
    }
    r := ReadStats(Split(parts[1], "\n"));
  }

  /** The loop of the parser over the lines of the statistics block. */
  method ReadStats(lines: seq<string>) returns (r: Result<StatMap, RunError>)
    ensures r == StatsOf(lines)
  {
    var stats: StatMap := map[];
    var i := 0;
    while i < |lines|
      invariant 0 <= i <= |lines|
      invariant Fold(LineEffect, lines[..i]) == Ok(stats)
    {
      var next := ReadLine(stats, lines[i]);
      ReadStep(LineEffect, lines, i, stats, next);
      if next.Err? {
        return next;
      }
      stats := next.value;
      i := i + 1;
    }
    assert lines[..i] == lines;
    return Ok(stats);
  }

  /** What reading one line does to the map, told from the line's text:
      a line whose body is empty or starts with `ld` changes nothing;
      otherwise its first token is bound to its last token's cast value,
      or the cast's invalid-number error is raised. */
  predicate ReadsAsText(stats: StatMap, line: string, r: Result<StatMap, RunError>) {
    var value := CastToFloatWithK(LastTokenOf(Body(line)));
    && (!Kept(line) ==> r == Ok(stats))
    && (Kept(line) && value.Ok? ==> r == Ok(stats[FirstTokenOf(Body(line)) := value.value]))
    && (Kept(line) && value.Err? ==> r == Err(InvalidNumber))
  }

  /** The body of the parser's loop for one line. */
  method ReadLine(stats: StatMap, line: string) returns (r: Result<StatMap, RunError>)
    ensures r == Apply(stats, LineEffect(line))
    ensures ReadsAsText(stats, line, r)
  {
    var raw := SplitStat(line);
    r := ReadRaw(stats, raw);
    KeptIff(line);
    assert raw == RawStat(FirstTokenOf(Body(line)), LastTokenOf(Body(line)));
  }

  /** The loop body once the line is split into its key and value. */
  method ReadRaw(stats: StatMap, raw: RawStat) returns (r: Result<StatMap, RunError>)
    ensures r == Apply(stats, EffectOf(raw))
  {
    if StartsWith(raw.key, "ld") {
      return Ok(stats);
    }
    if raw.key != [] && raw.value != [] {
      r := Store(stats, raw.key, raw.value);
      return;
    }
    return Ok(stats);
  }

  /** `parsed_stats[key] = cast_to_float_with_k(value)`: the cast value
      stored under the key, or the cast's error. */
  method Store(stats: StatMap, key: string, token: string) returns (r: Result<StatMap, RunError>)
    ensures r.Ok? <==> CastToFloatWithK(token).Ok?
    ensures r.Ok? ==> r.value == stats[key := CastToFloatWithK(token).value]
    ensures r.Err? ==> r.error == InvalidNumber
  {
    var v := CastToFloatWithK(token);
    if v.Err? {
      return Err(v.error);
    }
    return Ok(stats[key := v.value]);
  }

  /** One more line: its effect applied to the fold of the lines before it. */
  lemma FoldStep(effect: string -> Effect, lines: seq<string>, i: nat)
    requires i < |lines|
    ensures Fold(effect, lines[..i + 1]) ==
      match Fold(effect, lines[..i])
      case Err(e) => Err(e)
      case Ok(stats) => Apply(stats, effect(lines[i]))
  {
    assert lines[..i + 1][..i] == lines[..i];
  }

  /** One step of the parser's loop: a line that reads extends the fold by
      one line, and a line that fails decides the result for all lines. */
  lemma ReadStep(effect: string -> Effect, lines: seq<string>, i: nat, stats: StatMap,
                 next: Result<StatMap, RunError>)
    requires i < |lines| && Fold(effect, lines[..i]) == Ok(stats)
    requires next == Apply(stats, effect(lines[i]))
    ensures next.Ok? ==> Fold(effect, lines[..i + 1]) == next
    ensures next.Err? ==> Fold(effect, lines) == next
  {
    FoldStep(effect, lines, i);
    if next.Err? {
      FoldErrorSticks(effect, lines, i + 1);
    }
  }

  /** Once a prefix of the lines fails, the whole reading fails the same way. */
  lemma {:induction false} FoldErrorSticks(effect: string -> Effect, lines: seq<string>, n: nat)
    requires n <= |lines| && Fold(effect, lines[..n]).Err?
    ensures Fold(effect, lines) == Fold(effect, lines[..n])
    decreases |lines| - n
  {
    if n < |lines| {
      assert lines[..n + 1][..n] == lines[..n];
      FoldErrorSticks(effect, lines, n + 1);
    } else {
      assert lines[..n] == lines;
    }
  }

  /** The fold fails exactly when some line's effect is a failure. */
  lemma {:induction false} FoldFailure(effect: string -> Effect, lines: seq<string>)
    ensures Fold(effect, lines).Err? <==> exists i :: 0 <= i < |lines| && effect(lines[i]).Fail?
    decreases |lines|
  {
    if |lines| > 0 {
      var init := lines[..|lines| - 1];
      FoldFailure(effect, init);
      assert forall i :: 0 <= i < |init| ==> init[i] == lines[i];
    }
  }

  /** The keys of the folded map are exactly the keys the lines put. */
  lemma {:induction false} FoldKeys(effect: string -> Effect, lines: seq<string>)
    requires Fold(effect, lines).Ok?
    ensures forall k :: k in Fold(effect, lines).value <==>
      exists i :: 0 <= i < |lines| && effect(lines[i]).Put? && effect(lines[i]).key == k
    decreases |lines|
  {
    if |lines| > 0 {
      var init := lines[..|lines| - 1];
      FoldKeys(effect, init);
      assert forall i :: 0 <= i < |init| ==> init[i] == lines[i];
    }
  }

  /** Line `i` puts a key that no later line puts again. */
  predicate LastPut(effect: string -> Effect, lines: seq<string>, i: int) {
    && 0 <= i < |lines| && effect(lines[i]).Put?
    && forall j :: i < j < |lines| && effect(lines[j]).Put? ==>
      effect(lines[j]).key != effect(lines[i]).key
  }

  /** The map holds, for each key, the value of the last line putting it. */
  lemma {:induction false} FoldLastWins(effect: string -> Effect, lines: seq<string>, i: int)
    requires Fold(effect, lines).Ok? && LastPut(effect, lines, i)
    ensures effect(lines[i]).key in Fold(effect, lines).value
    ensures Fold(effect, lines).value[effect(lines[i]).key] == effect(lines[i]).value
    decreases |lines|
  {
    if i < |lines| - 1 {
      var init := lines[..|lines| - 1];
      assert forall j :: 0 <= j < |init| ==> init[j] == lines[j];
      assert LastPut(effect, init, i);
      FoldLastWins(effect, init, i);
    }
  }

  /** A skipped line leaves the fold as it is. */
  lemma FoldSkip(effect: string -> Effect, lines: seq<string>, line: string)
    requires effect(line).Skip?
    ensures Fold(effect, lines + [line]) == Fold(effect, lines)
  {
    assert (lines + [line])[..|lines|] == lines;
  }

  /** The reading fails exactly when some kept line holds a bad value. */
  lemma StatsOfFailure(lines: seq<string>)
    ensures StatsOf(lines).Err? <==> exists i :: 0 <= i < |lines| && Rejected(lines[i])
  {
    FoldFailure(LineEffect, lines);
    forall i | 0 <= i < |lines|
      ensures LineEffect(lines[i]).Fail? <==> Rejected(lines[i])
    {
      LineEffectMeaning(lines[i]);
    }
  }

  /** The keys of the map are exactly the keys of the kept lines. */
  lemma StatsOfKeys(lines: seq<string>)
    ensures StatsOf(lines).Ok? ==> forall k :: k in StatsOf(lines).value <==>
      exists i :: 0 <= i < |lines| && Kept(lines[i]) && SplitStat(lines[i]).key == k
  {
    if StatsOf(lines).Err? {
      return;
    }
    FoldKeys(LineEffect, lines);
    StatsOfFailure(lines);
    forall i | 0 <= i < |lines|
      ensures Kept(lines[i]) <==> LineEffect(lines[i]).Put?
      ensures Kept(lines[i]) ==> LineEffect(lines[i]).key == SplitStat(lines[i]).key
    {
      LineEffectMeaning(lines[i]);
      assert !Rejected(lines[i]);
    }
  }

  /** Line `i` is kept and no later kept line has the same key. */
  predicate LastOfKey(lines: seq<string>, i: int) {
    && 0 <= i < |lines| && Kept(lines[i])
    && forall j :: i < j < |lines| && Kept(lines[j]) ==>
      SplitStat(lines[j]).key != SplitStat(lines[i]).key
  }

  /** A key that occurs on several lines holds the value of the last one. */
  lemma StatsOfLastWins(lines: seq<string>, i: int)
    ensures StatsOf(lines).Ok? && LastOfKey(lines, i) ==>
      && SplitStat(lines[i]).key in StatsOf(lines).value
      && CastToFloatWithK(SplitStat(lines[i]).value)
         == Ok(StatsOf(lines).value[SplitStat(lines[i]).key])
  {
    if !(StatsOf(lines).Ok? && LastOfKey(lines, i)) {
      return;
    }
    StatsOfFailure(lines);
    forall j | 0 <= j < |lines|
      ensures Kept(lines[j]) <==> LineEffect(lines[j]).Put?
      ensures Kept(lines[j]) ==> LineEffect(lines[j]).key == SplitStat(lines[j]).key
    {
      LineEffectMeaning(lines[j]);
      assert !Rejected(lines[j]);
    }
    assert LastPut(LineEffect, lines, i);
    FoldLastWins(LineEffect, lines, i);
  }

  /** Every key of the map is non-empty, holds no space and does not start
      with `ld`. */
  lemma StatsOfKeyShape(lines: seq<string>)
    ensures StatsOf(lines).Ok? ==> forall k :: k in StatsOf(lines).value ==>
      k != [] && ' ' !in k && !StartsWith(k, "ld")
  {
    if StatsOf(lines).Err? {
      return;
    }
    StatsOfKeys(lines);
    forall k | k in StatsOf(lines).value
      ensures k != [] && ' ' !in k && !StartsWith(k, "ld")
    {
      var i :| 0 <= i < |lines| && Kept(lines[i]) && SplitStat(lines[i]).key == k;
      KeptKeyShape(lines[i]);
    }
  }

  /** The key of a kept line is non-empty, holds no space and does not
      start with `ld`. */
  lemma KeptKeyShape(line: string)
    requires Kept(line)
    ensures SplitStat(line).key != [] && ' ' !in SplitStat(line).key
    ensures !StartsWith(SplitStat(line).key, "ld")
  {
    KeptIff(line);
  }

  /** The source's test on the tokens (the key does not start with `ld`,
      and the key and value are both non-empty) holds exactly when the
      line's body is non-empty and does not start with `ld`. */
  lemma KeptIff(line: string)
    ensures (&& !StartsWith(SplitStat(line).key, "ld")
             && SplitStat(line).key != [] && SplitStat(line).value != []) <==> Kept(line)
  {
    FirstTokenLd(Body(line));
  }

  /** The first token starts with `ld` exactly when the text does. */
  lemma FirstTokenLd(t: string)
    requires t == [] || !IsSpace(t[0])
    ensures StartsWith(FirstTokenOf(t), "ld") <==> StartsWith(t, "ld")
  {
    var key := FirstTokenOf(t);
    FirstToken(t);
    if StartsWith(t, "ld") {
      assert t[..2] == "ld";
      assert t[0] == 'l' && t[1] == 'd';
      assert |key| >= 2;
      assert key[..2] == t[..2];
    }
    if StartsWith(key, "ld") {
      assert t[..2] == key[..2];
    }
  }

  /** A line that is not kept leaves the map as it is. */
  lemma IgnoredLine(lines: seq<string>, line: string)
    ensures !Kept(line) ==> StatsOf(lines + [line]) == StatsOf(lines)
  {
    if !Kept(line) {
      LineEffectMeaning(line);
      FoldSkip(LineEffect, lines, line);
    }
  }

  /** A blank or whitespace-only line adds nothing. */
  lemma WhitespaceLineIgnored(lines: seq<string>, line: string)
    requires AllSpace(line)
    ensures StatsOf(lines + [line]) == StatsOf(lines)
  {
    var head := Split(line, CommentMark)[0];
    SplitHead(line, CommentMark);
    assert AllSpace(head) by {
      forall k | 0 <= k < |head|
        ensures IsSpace(head[k])
      {
        assert head[k] == line[k];
      }
    }
    IgnoredLine(lines, line);
  }

  /** The comment mark cannot straddle the end of a text that does not
      end in `" #"`. */
  lemma CommentNoStraddle(a: string, c: string)
    requires !EndsWith(a, " #")
    ensures NoStraddle(a, CommentMark, c)
  {
    var s := a + CommentMark + c;
    forall j | 0 <= j < |a| < j + |CommentMark|
      ensures !OccursAt(s, CommentMark, j)
    {
      var one := 1;
      if j == |a| - 1 {
        assert s[j + one] == ' ' != CommentMark[one];
        assert !OccursAt(s, CommentMark, j);
      } else {
        var zero := 0;
        assert a[|a| - 2..] == [a[|a| - 2], a[|a| - 1]];
        assert s[j + zero] == a[|a| - 2] && s[j + one] == a[|a| - 1];
        assert CommentMark[zero] == ' ' && CommentMark[one] == '#';
        assert a[|a| - 2] == ' ' && a[|a| - 1] == '#' ==> EndsWith(a, " #");
        assert !OccursAt(s, CommentMark, j);
      }
    }
  }

  /** Whatever follows the first comment mark does not change the key or
      the value of a line. */
  lemma CommentIgnored(a: string, c: string)
    requires !Contains(a, CommentMark) && !EndsWith(a, " #")
    ensures Body(a + CommentMark + c) == Body(a)
    ensures SplitStat(a + CommentMark + c) == SplitStat(a)
  {
    var s := a + CommentMark + c;
    CommentNoStraddle(a, c);
    FindAfter(a, CommentMark, c);
    SplitAtFirst(s, CommentMark, |a|);
    assert s[..|a|] == a;
  }

  /** The first token of `key + rest`, where `rest` starts with a space. */
  lemma FirstTokenIs(key: string, rest: string)
    requires ' ' !in key && |rest| > 0 && rest[0] == ' '
    ensures FirstTokenOf(key + rest) == key
  {
    var t := key + rest;
    ContainsChar(key, ' ');
    assert rest == " " + rest[1..];
    assert t == key + " " + rest[1..];
    FindAfter(key, " ", rest[1..]);
    SplitAtFirst(t, " ", |key|);
    assert t[..|key|] == key;
  }

  /** The last token of `rest + value`, where `rest` ends with a space. */
  lemma LastTokenIs(rest: string, value: string)
    requires ' ' !in value && |rest| > 0 && rest[|rest| - 1] == ' '
    ensures LastTokenOf(rest + value) == value
  {
    var t := rest + value;
    var l := LastTokenOf(t);
    LastTokenAfterSpace(t);
    ContainsChar(l, ' ');
    assert l == t[|t| - |l|..];
    assert value == t[|t| - |value|..];
  }

  /** A line without `#` and without surrounding whitespace is its own body. */
  lemma PlainLineBody(line: string)
    requires '#' !in line && line != []
    requires !IsSpace(line[0]) && !IsSpace(line[|line| - 1])
    ensures Body(line) == line
  {
    forall j | 0 <= j <= |line| - |CommentMark|
      ensures !OccursAt(line, CommentMark, j)
    {
      var one := 1;
      assert line[j + one] in line;
      assert line[j + one] != CommentMark[one];
    }
    assert Split(line, CommentMark)[0] == line;
    StripSurrounded([], line, []);
    assert [] + line + [] == line;
  }

  /** A statistic line `key<spaces and middle tokens>value`: the key and the
      value come back, whatever stands between them. */
  lemma StatLineTokens(key: string, gap: string, value: string)
    requires key != [] && value != []
    requires ' ' !in key && ' ' !in value && '#' !in key + gap + value
    requires !IsSpace(key[0]) && !IsSpace(value[|value| - 1])
    requires |gap| > 0 && gap[0] == ' ' && gap[|gap| - 1] == ' '
    ensures SplitStat(key + gap + value) == RawStat(key, value)
  {
    var line := key + gap + value;
    assert line[0] == key[0];
    assert line[|line| - 1] == value[|value| - 1];
    PlainLineBody(line);
    assert line == key + (gap + value);
    FirstTokenIs(key, gap + value);
    LastTokenIs(key + gap, value);
  }

  /** No proper prefix of the sentinel is also a suffix of it, so two
      occurrences can never overlap. */
  lemma SentinelUnbordered()
    ensures Unbordered(Sentinel)
  {
    // A prefix ends in '*' only at lengths 6, 7 and 31, and there its
    // first character 's' differs from the suffix's; elsewhere the last
    // characters differ, since the sentinel ends in '*'.
    forall k | 0 < k < |Sentinel|
      ensures Sentinel[..k] != Sentinel[|Sentinel| - k..]
    {
      if k == 6 || k == 7 || k == 31 {
        BorderWitness(Sentinel, k, 0);
      } else {
        BorderWitness(Sentinel, k, k - 1);
      }
    }
  }

  /** A prefix and a suffix of the same length that differ at one place. */
  lemma BorderWitness(p: string, k: nat, j: nat)
    requires j < k < |p| && p[j] != p[|p| - k + j]
    ensures p[..k] != p[|p| - k..]
  {
    assert p[..k][j] != p[|p| - k..][j];
  }

  /** Only the text between the first and the second sentinel is read:
      whatever comes before the first one or after the second one is
      ignored. */
  lemma StatsBlockBetween(a: string, b: string, c: string)
    requires !Contains(a, Sentinel) && !Contains(b, Sentinel)
    ensures StatsBlock(a + Sentinel + b) == Some(b)
    ensures StatsBlock(a + Sentinel + b + Sentinel + c) == Some(b)
  {
    SplitHead(b, Sentinel);
    SplitAfterSentinel(a, b);
    BlockOfSplit(a + Sentinel + b, a, Split(b, Sentinel));
    var rest := b + Sentinel + c;
    SplitAfterSentinel(b, c);
    SplitAfterSentinel(a, rest);
    BlockOfSplit(a + Sentinel + rest, a, Split(rest, Sentinel));
    SeparatorTwice(a, Sentinel, b, c);
  }

  lemma SeparatorTwice(a: string, p: string, b: string, c: string)
    ensures a + p + b + p + c == a + p + (b + p + c)
  {
  }

  /** The block is the second piece of the split. */
  lemma BlockOfSplit(s: string, first: string, rest: seq<string>)
    requires |rest| > 0 && Split(s, Sentinel) == [first] + rest
    ensures StatsBlock(s) == Some(rest[0])
  {
  }

  /** Text without the sentinel, the sentinel, then more: the split yields
      the text, then the pieces of what follows. */
  lemma SplitAfterSentinel(a: string, rest: string)
    requires !Contains(a, Sentinel)
    ensures Split(a + Sentinel + rest, Sentinel) == [a] + Split(rest, Sentinel)
  {
    var s := a + Sentinel + rest;
    SentinelUnbordered();
    UnborderedNoStraddle(a, Sentinel, rest);
    FindAfter(a, Sentinel, rest);
    SplitAtFirst(s, Sentinel, |a|);
    assert s[..|a|] == a;
    assert s[|a| + |Sentinel|..] == rest;
  }

  /** The statistics of an output are those of its lines between the first
      and the second sentinel. */
  lemma ParseOutputBetween(a: string, b: string, c: string)
    requires !Contains(a, Sentinel) && !Contains(b, Sentinel)
    ensures ParseOutput(a + Sentinel + b) == StatsOf(Split(b, "\n"))
    ensures ParseOutput(a + Sentinel + b + Sentinel + c) == StatsOf(Split(b, "\n"))
  {
    StatsBlockBetween(a, b, c);
  }

  /** Python's `float("")` raises ValueError. */
  lemma EmptyIsNoNumber()
    ensures ParseFloat("") == None
  {
    assert Strip(RemoveUnderscores("")) == "";
    assert AsciiLower("") == "";
    assert FindFirst("", ".") == None;
  }

  /** A token starting with an information separator U+001C..U+001F is not
      a number, although `str.isspace` counts that character as whitespace:
      `float()` strips only ASCII whitespace. */
  lemma CastRejectsSeparator(c: char, t: string)
    requires '\U{1C}' <= c <= '\U{1F}'
    ensures CastToFloatWithK([c] + t) == Err(InvalidNumber)
  {
    var token := [c] + t;
    if EndsWithK(token) {
      assert |t| > 0;
      assert token[..|token| - 1] == [c] + t[..|t| - 1];
      SeparatorRejected(c, t[..|t| - 1]);
    } else {
      SeparatorRejected(c, t);
    }
  }

  /** An empty token and a bare `k` are not numbers. */
  lemma CastBareK(c: char)
    requires IsKChar(c)
    ensures CastToFloatWithK("") == Err(InvalidNumber)
    ensures CastToFloatWithK([c]) == Err(InvalidNumber)
  {
    EmptyIsNoNumber();
    assert [c][..0] == "";
  }

  /** Appending a `k` to a token that does not already end in one scales
      its number by 1000 and keeps it unparseable when it was. */
  lemma CastScalesK(s: string, c: char)
    requires IsKChar(c) && !EndsWithK(s)
    ensures CastToFloatWithK(s + [c]).Ok? <==> CastToFloatWithK(s).Ok?
    ensures CastToFloatWithK(s).Ok? ==>
      CastToFloatWithK(s + [c]).value == TimesThousand(CastToFloatWithK(s).value)
  {
    assert (s + [c])[..|s|] == s;
  }

  /** A token that already ends in a `k` fails once another is appended:
      only the last `k` is stripped, and `float()` rejects the one before
      it, so `"5kk"` raises although `"5k"` casts. */
  lemma CastDoubledK(s: string, c: char)
    requires IsKChar(c) && EndsWithK(s)
    ensures CastToFloatWithK(s + [c]) == Err(InvalidNumber)
  {
    assert (s + [c])[..|s|] == s;
    assert s == s[..|s| - 1] + [s[|s| - 1]];
    TrailingKRejected(s[..|s| - 1], s[|s| - 1]);
  }

  /** The text of an integer ends in a digit, so never in `k`. */
  lemma IntegerTextEndsInDigit(i: int)
    ensures !EndsWithK(IntToString(i))
  {
    var digits := NatToString(if i < 0 then -i else i);
    var t := IntToString(i);
    assert t[|t| - 1] == digits[|digits| - 1];
    assert IsDigit(digits[|digits| - 1]);
  }

  /** `str(i)` casts to `i`. */
  lemma CastInteger(i: int)
    ensures CastToFloatWithK(IntToString(i)) == Ok(Finite(i as real))
  {
    IntegerTextEndsInDigit(i);
    ParseIntString(i);
    CastPlain(IntToString(i));
  }

  /** `str(i) + "k"` casts to `1000 * i`. */
  lemma CastIntegerK(i: int, c: char)
    requires IsKChar(c)
    ensures CastToFloatWithK(IntToString(i) + [c]) == Ok(Finite(i as real * 1000.0))
  {
    IntegerTextEndsInDigit(i);
    CastInteger(i);
    CastFiniteK(IntToString(i), c, i as real);
  }

  /** A token casting to the finite `v`, with a `k` appended, casts to
      `1000 * v`. */
  lemma CastFiniteK(s: string, c: char, v: real)
    requires IsKChar(c)
    ensures !EndsWithK(s) && CastToFloatWithK(s) == Ok(Finite(v)) ==>
      CastToFloatWithK(s + [c]) == Ok(Finite(v * 1000.0))
  {
    if !EndsWithK(s) && CastToFloatWithK(s) == Ok(Finite(v)) {
      CastScalesK(s, c);
      ThousandOfValue(CastToFloatWithK(s + [c]), v);
    }
  }

  lemma ThousandOfValue(r: Result<Float, RunError>, v: real)
    requires r.Ok? && r.value == TimesThousand(Finite(v))
    ensures r == Ok(Finite(v * 1000.0))
  {
  }

  /** `"<a>.<f>k"` casts to `1000 * (a + f / 10^|f|)`, as in `1.5k`. */
  lemma CastPointK(a: nat, f: string, c: char, v: real)
    requires AllDigits(f) && IsKChar(c)
    requires v == a as real + DigitsValue(f) as real / Pow10(|f|) as real
    ensures CastToFloatWithK(NatToString(a) + "." + f + [c]) == Ok(Finite(v * 1000.0))
  {
    var t := NatToString(a) + "." + f;
    CastPoint(a, f, v);
    PointTextEndsInDigitOrPoint(a, f);
    CastFiniteK(t, c, v);
  }

  /** `"<a>.<f>"` casts to `a + f / 10^|f|`. */
  lemma CastPoint(a: nat, f: string, v: real)
    requires AllDigits(f)
    requires v == a as real + DigitsValue(f) as real / Pow10(|f|) as real
    ensures CastToFloatWithK(NatToString(a) + "." + f) == Ok(Finite(v))
  {
    var t := NatToString(a) + "." + f;
    ParsePointString(a, f, v);
    PointTextEndsInDigitOrPoint(a, f);
    CastPlain(t);
  }

  lemma PointTextEndsInDigitOrPoint(a: nat, f: string)
    requires AllDigits(f)
    ensures !EndsWithK(NatToString(a) + "." + f)
  {
    var t := NatToString(a) + "." + f;
    if |f| > 0 {
      assert t[|t| - 1] == f[|f| - 1];
      assert IsDigit(f[|f| - 1]);
    } else {
      assert t[|t| - 1] == '.';
    }
  }
}
